=== FILE: README.md ===
# Box-score reconciliation model

This project models the box-score derivation in `scripts/python/functions.py`. That code turns a game's box score into per-player batting and pitching records. The box score holds batter and pitcher lines for both teams, plus free-text fields such as "HBP", "SF" and "Batters faced". The code derives each player's hit-by-pitch count (`hbp`), sacrifice-fly flag (`sf`) and batters-faced count (`bat_faced`) by looking for the player's display name inside those texts. It then drops the team-total line (person id 0), attaches the game and team ids, and, for pitchers, converts innings pitched into outs. Two aggregators concatenate the tables of a list of games. A schedule lookup collects the schedule entries for a list of game ids. When an id has more than one entry, it drops the postponed and cancelled ones.

Modules, one file each:

- `Wrappers` (`wrappers.dfy`): `Option`, `Result`, and the helpers for combining rows and tables:
  - `Collect`: a sequence of results, or the first failure.
  - `Flatten`: concatenates a list of tables, and `TotalRows` counts their rows.
  - `Zip`: pairs two columns of equal length row by row.
  - `Shift` and `Increasing`: move a list of row indices one place on, and say that indices strictly increase.
- `Text` (`text.dfy`): the Python string primitives the code relies on:
  - `in` (`Contains`);
  - `str.split` (`Split`/`Join`);
  - `str.count` (`Count`), which counts non-overlapping matches and gives `|s| + 1` for the empty pattern;
  - the first match of `\d+` (`FirstDigitRun`);
  - decimal digits and their values.
- `BoxScoreData` (`box_score.dfy`): the provider's box score as datatypes, the labels, the placeholder id, the `Failure` kinds, and the lookup of a labelled field.
- `Batting` (`batting.dfy`): `game_analysis_batter`.
  - `ReconcileBatting` is imperative. For each side, `BatterSide` allocates fresh `hbp`/`sf` arrays at zero, and the nested name/fragment loops overwrite them in place.
  - It is proved equal to the declarative `BattingGame`.
- `Pitching` (`pitching.dfy`): `game_analysis_pitching`.
  - It follows the same pattern with `hbp`/`batFaced` arrays.
  - Outs are computed from innings pitched.
- `Aggregate` (`aggregate.dfy`): `game_list_analysis_batting` and `game_list_analysis_pitching`.
  - The loop rebinds `final` (an `Option` that is `None` before the first game).
  - Each is proved equal to `GameList` over the per-game results.
- `Schedule` (`schedule.dfy`): the status filter of `get_game_data`. The loop appends to `out`.

Python exceptions become `Err` values of `Failure`:

- `UnboundHbpList`: `hbp_list` is read but was never assigned. This happens when there is no HBP entry and a name is empty, because `'' in ''` holds.
- `NotAnInteger`: `int()` of a token such as `2.` or `2.5`, which the batting regex `\d+\.?\d*` can return.
- `NoDigitRun`: `re.findall(r"\d+", s)[0]` on a fragment that contains no digit.
- `MissingBattersFaced`: there is no "Batters faced" entry.
- `NoGames`: `final` is never bound for an empty game list.
- `NoScheduleCandidate`: `result[0]` on an empty lookup.
- `EmptySchedule`: dropping columns from an empty table, which raises `KeyError`.
- `EmptySide`: a side has no batter or pitcher lines. Its table then has no `personId` column, so the filter at lines 108/112 (batting) or 190/196 (pitching) raises `KeyError`. This happens after both sides' loops, so a failure inside a loop comes first.

Quirks of the code the model keeps as written:

- **SF inside the HBP loop.** The SF test sits inside the HBP fragment loop. A batter gets `sf = 1` only if the name also appears in the HBP text, so SF is not an independent presence check (`Batting.HbpIsLastNamingFragment`).
- **Decimal tokens.** The batting HBP regex can return a decimal token, and `int()` then raises.
- **Missing "Batters faced".** A missing "Batters faced" field raises rather than reading as empty.
- **Pitcher hbp.** A pitcher's `hbp` is the number of occurrences of the name in the whole HBP text, not the number written in a fragment (`Pitching.HbpReadDifferently`).
- **Empty side.** A team without lines makes the game fail rather than contribute no rows (`Batting.EmptyBattingSide`, `Pitching.EmptyPitchingSide`).

Innings pitched is held as an exact number of tenths (`6.2` is `62`), so outs are `3 * (t / 10) + t % 10`.

## Model

| member | source | states |
|---|---|---|
| Batting.ReconcileBatting | scripts/python/functions.py:37-116 | The imperative reconciler returns exactly `BattingGame`: the home rows followed by the away rows, or the failure of the first batter whose columns cannot be derived, or `EmptySide` when a side has no lines. |
| Batting.BatterSide | scripts/python/functions.py:48-105 | One side's `hbp`/`sf` columns, added at 0 and filled by the loops, are exactly the per-batter derivations in order, or the first failing batter's failure. |
| Batting.FillBatterColumns | scripts/python/functions.py:79-105 | After the loop over one side's batters, the `hbp`/`sf` arrays hold each batter's derived columns in order. Otherwise the returned failure is the first failing batter's failure. |
| Batting.ScanFragments | scripts/python/functions.py:81-91 | The fragment loop changes only slot `i` of `hbp` and `sf`. It fails (`NotAnInteger`) exactly when a fragment naming the batter has an unreadable token. Otherwise `hbp[i]` is the value from the last fragment naming the batter, and `sf[i]` is 1 iff the name is in the team's SF text. |
| Batting.BattingGame | scripts/python/functions.py:37-116 | A successful game has lines on both sides and `RealBatters(home) + RealBatters(away)` rows. A failure is `UnboundHbpList`, `NotAnInteger` or `EmptySide`, and nothing else. |
| Batting.HbpFragments | scripts/python/functions.py:59-63 | There is no fragment list exactly when there is no HBP entry: the list is never bound. Otherwise there is at least one fragment, and the fragments joined with `;` give back the entry. `NoHbpEntryEmptyName` and `HbpIsLastNamingFragment` state how the list is used. |
| Batting.FragmentHbp | scripts/python/functions.py:84-88 | A fragment fails only with `NotAnInteger`, and only when a `.` follows a digit. Its value is pinned by `FragmentHbpReadsNumber` (the first number, or 1 without digits) and `FragmentHbpRejectsDecimal`. |
| Batting.LastFragmentHbp | scripts/python/functions.py:82-88 | No `ensures`: the value of the last fragment naming the batter, or 0. `LastFragmentHbpIsLast` pins it down. |
| Batting.LastFragmentHbpIsLast | scripts/python/functions.py:82-88 | Later fragments overwrite earlier ones. The value is that of the fragment that names the batter with no naming fragment after it, and 0 when no fragment names the batter. |
| Batting.Record | scripts/python/functions.py:108-110 | No `ensures`: the row of a line is its person id and stats, its `hbp`/`sf`, the game id and the team id. `SideOrder` and `BattingRowsShape` state which lines give rows, and in what order. |
| Batting.Derivations | scripts/python/functions.py:79-105 | No `ensures`: each line's `BatterColumns` result, in line order. `BatterSide` and `FillBatterColumns` are proved to compute `Collect` of it. |
| Batting.BatterColumns | scripts/python/functions.py:81-91 | A batter whose name is not in the HBP text gets `hbp = sf = 0`. A failure is `UnboundHbpList` exactly when there is no HBP list, and `NotAnInteger` when there is one. `sf <= 1`, and `sf == 1` only if the name is in the team's SF text. |
| Batting.FirstIntToken | scripts/python/functions.py:86 | `int()` of the first `\d+\.?\d*` token fails only with `NotAnInteger`, and only when the text has a `.` right after a digit. |
| Batting.EmptyBattingSide | scripts/python/functions.py:108-112 | When one side has no lines and every batter's columns are derived, the game fails with `EmptySide`. |
| Batting.SideOrder | scripts/python/functions.py:108-112 | The filter keeps line order. Row `i` is the row of line `idx[i]`, and the indices strictly increase. Every non-placeholder line is among them, so each gives exactly one row. |
| Batting.SideRows | scripts/python/functions.py:108-114 | The filtered side has one row per batter line whose person id is not the placeholder 0, and no placeholder row. |
| Batting.HbpIsLastNamingFragment | scripts/python/functions.py:79-91 | A batter's columns are derived iff every fragment naming the batter is readable. `hbp` is the last naming fragment's value (0 if none). `sf <= 1`, and `sf == 1` iff the name occurs in both the HBP text and the team's SF text. |
| Batting.BattingRowsShape | scripts/python/functions.py:107-116 | A successful game has `RealBatters(home) + RealBatters(away)` rows. The first group are home rows with the home team id, the rest are away rows with the away team id. Each row carries the game id and a non-placeholder line's person id and stats, with that line's derived `hbp`/`sf`. |
| Batting.BattingRowsComplete | scripts/python/functions.py:107-116 | Every non-placeholder batter has a row with its person id and stats, inside its own team's group. |
| Batting.SfTextOnlySetsSf | scripts/python/functions.py:89-91 | Changing the SF text changes neither success nor failure nor `hbp`; it can only change `sf`. |
| Batting.SfStaysWithItsTeam | scripts/python/functions.py:65-105 | Replacing the away team's field list leaves the home rows unchanged, and replacing the home list leaves the away rows unchanged. Success and failure do not change either. |
| Batting.NoHbpEntryNoHbp | scripts/python/functions.py:59-63 | With no HBP entry and no empty batter name, the game succeeds iff both sides have lines, and otherwise fails with `EmptySide`. Every row of a successful game has `hbp == 0` and `sf == 0`. |
| Batting.NoHbpEntryEmptyName | scripts/python/functions.py:59-83 | With no HBP entry and an empty batter name, the game fails with `UnboundHbpList`. |
| Batting.FragmentHbpReadsNumber | scripts/python/functions.py:84-88 | A fragment whose first digits are `n`, followed by neither a digit nor a `.`, yields `n`. A fragment without digits yields 1. |
| Batting.FragmentHbpRejectsDecimal | scripts/python/functions.py:86 | A fragment whose first number is followed by `.` makes the token non-integral and fails with `NotAnInteger`. |
| Pitching.ReconcilePitching | scripts/python/functions.py:135-203 | The imperative reconciler returns exactly `PitchingGame`: the home rows followed by the away rows, or the failure (`MissingBattersFaced`, the first failing pitcher's `NoDigitRun`, or `EmptySide` when a side has no lines). |
| Pitching.PitcherSide | scripts/python/functions.py:146-186 | One side's `hbp`/`bat_faced` columns, added at 0 and filled by the loops, are exactly the per-pitcher derivations in order, or the first failing pitcher's failure. |
| Pitching.FillPitcherColumns | scripts/python/functions.py:169-186 | After the loop over one side's pitchers, the `hbp`/`batFaced` arrays hold each pitcher's derived columns in order. Otherwise the returned failure is the first failing pitcher's failure. |
| Pitching.ScanBattersFaced | scripts/python/functions.py:174-176 | The fragment loop changes only slot `i`. It fails (`NoDigitRun`) exactly when a fragment naming the pitcher has no digit. Otherwise the slot holds the first number of the last fragment naming the pitcher (0 if none). |
| Pitching.PitchingGame | scripts/python/functions.py:135-203 | A successful game had a "Batters faced" entry, has lines on both sides and has `RealPitchers(home) + RealPitchers(away)` rows. A failure is `MissingBattersFaced`, `NoDigitRun` or `EmptySide`, and nothing else. |
| Pitching.PitcherHbp | scripts/python/functions.py:171-172 | No `ensures`: `str.count` of the name when the name is in the HBP text, else 0. `PitcherHbpIsCount` shows this is always the count. |
| Pitching.LastBattersFaced | scripts/python/functions.py:174-176 | No `ensures`: the number in the last fragment naming the pitcher, or 0. `LastBattersFacedIsLast` pins it down. |
| Pitching.LastBattersFacedIsLast | scripts/python/functions.py:174-176 | Later fragments overwrite earlier ones. The value is the number in the fragment that names the pitcher with no naming fragment after it, and 0 when no fragment names the pitcher. |
| Pitching.PitcherRecord | scripts/python/functions.py:190-194 | No `ensures`: the row of a line is its person id and stats, its `hbp`/`bat_faced`, the game and team ids, and `Outs(ip)`. `PitcherSideOrder` and `PitchingRowsShape` state which lines give rows, and in what order. |
| Pitching.PitcherDerivations | scripts/python/functions.py:169-186 | No `ensures`: each line's `PitcherColumns` result, in line order. `PitcherSide` and `FillPitcherColumns` are proved to compute `Collect` of it. |
| Pitching.PitcherColumns | scripts/python/functions.py:171-176 | A pitcher's derivation fails iff some "Batters faced" fragment names the pitcher and has no digit, and the failure is `NoDigitRun`. On success `hbp` is the occurrence count of the name in the HBP text. |
| Pitching.FragmentBattersFaced | scripts/python/functions.py:176 | Reading a fragment fails iff it has no digit, and the failure is `NoDigitRun`. |
| Pitching.Outs | scripts/python/functions.py:194-200 | The outs lie between three per whole inning and nine more. A whole number of innings gives exactly three outs per inning. |
| Pitching.EmptyPitchingSide | scripts/python/functions.py:190-196 | When one side has no lines, the "Batters faced" entry exists and every pitcher's columns are derived, the game fails with `EmptySide`. |
| Pitching.PitcherSideOrder | scripts/python/functions.py:190-196 | The filter keeps line order. Row `i` is the row of line `idx[i]`, and the indices strictly increase. Every non-placeholder line is among them, so each gives exactly one row. |
| Pitching.PitcherSideRows | scripts/python/functions.py:190-200 | The filtered side has one row per non-placeholder pitcher line, and no placeholder row. |
| Pitching.PitchingRowsShape | scripts/python/functions.py:190-203 | A successful game had a "Batters faced" entry and has `RealPitchers(home) + RealPitchers(away)` rows. The home rows come first, then the away rows, each with its team id. Each row carries a non-placeholder line's id and stats, its derived `hbp`/`bat_faced`, and `outs == Outs(ip)`. |
| Pitching.PitchingRowsComplete | scripts/python/functions.py:190-203 | Every non-placeholder pitcher has a row with its person id and stats, inside its own team's group. |
| Pitching.PitchingFailures | scripts/python/functions.py:164-176 | A missing "Batters faced" entry fails with `MissingBattersFaced`. Otherwise the only possible failures are `NoDigitRun` and `EmptySide`. |
| Pitching.PitcherHbpIsCount | scripts/python/functions.py:171-172 | The `in` guard is redundant: a pitcher's `hbp` is the occurrence count of the name in the HBP text. |
| Pitching.NoHbpEntryNoPitcherHbp | scripts/python/functions.py:158-162 | With no HBP entry and no empty pitcher name, every row of a successful game has `hbp == 0`. |
| Pitching.UnnamedPitcherFacedNone | scripts/python/functions.py:174-176 | A pitcher whose name does not occur in the whole "Batters faced" text keeps `bat_faced == 0`, and the derivation cannot fail. |
| Pitching.FragmentBattersFacedReadsNumber | scripts/python/functions.py:176 | A fragment whose first digit run is `n` yields `n`. A fragment without digits fails with `NoDigitRun`. |
| Pitching.OutsOfInnings | scripts/python/functions.py:194 | `w.p` innings (`p` one digit) is `3w + p` outs. |
| Pitching.OutsExamples | scripts/python/functions.py:194 | 6.2 innings is 20 outs, and 5.0 innings is 15 outs. |
| Pitching.OutsRoundTrip | scripts/python/functions.py:200 | For a well-formed innings value (partial digit below 3), converting to outs and back gives the same value. |
| Pitching.InningsRoundTrip | scripts/python/functions.py:194 | Every out count is the image of some well-formed innings value (unique by `OutsRoundTrip`). |
| Pitching.HbpReadDifferently | scripts/python/functions.py:171-172 | For the HBP text `"<name> <n>"`, the batter reconciler reads `hbp = n` but the pitcher reconciler reads `hbp = 1`. |
| Aggregate.AnalyseBattingList | scripts/python/functions.py:120-131 | The loop that rebinds `final` returns exactly `BattingList`. That is `NoGames` for no ids, the first failing game's failure, or the concatenation of every game's rows in id order. |
| Aggregate.AnalysePitchingList | scripts/python/functions.py:207-218 | The same for pitching: the result is exactly `PitchingList`. |
| Aggregate.BattingList | scripts/python/functions.py:120-131 | No ids fails with `NoGames`. With ids, a failure is never `NoGames`: it is a game's `UnboundHbpList`, `NotAnInteger` or `EmptySide`. |
| Aggregate.PitchingList | scripts/python/functions.py:207-218 | No ids fails with `NoGames`. With ids, a failure is never `NoGames`: it is a game's `MissingBattersFaced`, `NoDigitRun` or `EmptySide`. |
| Aggregate.GameList | scripts/python/functions.py:122-131 | An empty list fails with `NoGames`. Any other failure is the failure of one of the games. |
| Aggregate.GameListOk | scripts/python/functions.py:122-131 | The list succeeds iff it is non-empty and every game succeeds. |
| Aggregate.GameListFirstFailure | scripts/python/functions.py:122-129 | The list fails with the failure of its first failing game. |
| Aggregate.GameListRows | scripts/python/functions.py:126-131 | A successful list has as many rows as all its games together. |
| Aggregate.GameListLayout | scripts/python/functions.py:126-129 | Game `k`'s rows appear unchanged and contiguous, starting after the rows of the games before it. |
| Aggregate.BattingListRows | scripts/python/functions.py:120-131 | A successful batting list has one row per non-placeholder batter line of every game. |
| Aggregate.BattingListLayout | scripts/python/functions.py:120-131 | Game `k`'s batting table sits unchanged in the batting list, after the rows of the earlier games. |
| Aggregate.PitchingListRows | scripts/python/functions.py:207-218 | A successful pitching list has one row per non-placeholder pitcher line of every game. |
| Aggregate.PitchingListLayout | scripts/python/functions.py:207-218 | Game `k`'s pitching table sits unchanged in the pitching list, after the rows of the earlier games. |
| Schedule.GetGameData | scripts/python/functions.py:11-22 | The loop appending to `out` returns exactly `GameData`. That is the failure for the first id with no entry, `EmptySchedule` if nothing was kept, or the kept entries in order with their note columns dropped. |
| Schedule.GameData | scripts/python/functions.py:11-22 | A successful run has at least one row. No ids fails with `EmptySchedule`, and the only failures are `EmptySchedule` and `NoScheduleCandidate`. |
| Schedule.Selected | scripts/python/functions.py:14-21 | Collecting the kept entries of the ids can only fail with `NoScheduleCandidate`. |
| Schedule.Kept | scripts/python/functions.py:16-21 | The lookup for one id fails iff the provider returned nothing, with `NoScheduleCandidate`. A success keeps only returned entries. It keeps nothing only when there were several entries and none was playable. |
| Schedule.GameDataRows | scripts/python/functions.py:22 | A successful run's rows are the kept entries, one for one and in order, with their note columns dropped. |
| Schedule.SelectedPrefix | scripts/python/functions.py:14-21 | The entries kept for the first `n` ids are a prefix of those kept for all of them. |
| Schedule.GameDataLayout | scripts/python/functions.py:14-22 | Id `k`'s kept entries appear in order, with their notes dropped, right after the rows of the ids before it. The last id's rows end the table. |
| Schedule.Playable | scripts/python/functions.py:18 | No `ensures`: an entry is playable unless its status is "Postponed" or "Cancelled". `Filter` and `KeptEntries` state what the filter keeps. |
| Schedule.Drop | scripts/python/functions.py:22 | No `ensures`: an entry without its two pitcher notes, broadcasts and summary. `GameDataRows` and `GameDataLayout` state where each dropped entry lands. |
| Schedule.AppendPlayable | scripts/python/functions.py:17-19 | The inner loop appends exactly the playable entries, in order. |
| Schedule.Filter | scripts/python/functions.py:17-19 | Every kept entry is playable and was among the input entries. Every playable input entry is kept. |
| Schedule.FilterAppend | scripts/python/functions.py:17-19 | The filter keeps order: filtering a concatenation concatenates the filtered parts. |
| Schedule.KeptEntries | scripts/python/functions.py:16-21 | A single entry for an id is kept whatever its status. Of several entries, exactly the playable ones are kept. |
| Schedule.FirstUnknownIdFails | scripts/python/functions.py:21 | The first id the provider returns nothing for makes the run fail with `NoScheduleCandidate`. |
| Schedule.SelectedFailureSticks | scripts/python/functions.py:14-21 | Once an id fails, later ids cannot change the outcome. |
| Schedule.GameDataSound | scripts/python/functions.py:14-22 | A successful run has at least one row, and every row is an entry the provider returned for one of the ids, with its note columns dropped. |
| BoxScoreData.TextOrEmpty | scripts/python/functions.py:59-75 | A label no field has reads as the empty text. A non-empty result is the value of a field with that label. |
| BoxScoreData.FirstValue | scripts/python/functions.py:60 | The value of the first field with the label, or `None` iff no field has it. |
| Wrappers.Collect | scripts/python/functions.py:79-105 | Per-row results combine to success iff every row succeeds, keeping each value in order. Otherwise the failure is that of the first failing row. |
| Wrappers.Flatten | scripts/python/functions.py:127-129 | No `ensures`: the tables concatenated in order, as the repeated `pd.concat([final, result])` builds them (also lines 214-216). `FlattenLength` and `FlattenSlice` pin it down. |
| Wrappers.FlattenLength | scripts/python/functions.py:126-131 | The concatenation has as many rows as all the tables together. |
| Wrappers.FlattenSlice | scripts/python/functions.py:126-129 | Each concatenated table sits unchanged at the offset given by the sizes of the tables before it. |
| Text.IsDigit | scripts/python/functions.py:84 | No `ensures`: the ASCII digits `0`-`9`, standing for `str.isdigit` and `\d`. "## Left out" notes the Unicode digits not modelled. |
| Text.HasDigit | scripts/python/functions.py:84 | No `ensures`: `any(char.isdigit() for char in s)`, as at line 84 (and line 99). `FirstDigitRun` is `None` exactly when it fails. |
| Text.Contains | scripts/python/functions.py:81-90 | A text can contain only a pattern no longer than itself. |
| Text.Count | scripts/python/functions.py:172 | The empty pattern counts `|s| + 1`. A non-empty pattern counts at most `|s|`. |
| Text.CountPositiveIffContains | scripts/python/functions.py:171-172 | `s.count(sub) > 0` iff `sub in s`. |
| Text.CountFits | scripts/python/functions.py:172 | Non-overlapping occurrences of a non-empty name fit in the text. |
| Text.Split | scripts/python/functions.py:61 | Splitting gives at least one part, and no part contains the separator. |
| Text.JoinSplit | scripts/python/functions.py:61 | Joining the parts of a split gives back the text. |
| Text.SplitJoin | scripts/python/functions.py:61 | Splitting a join of separator-free parts gives back the parts. |
| Text.ContainsInJoin | scripts/python/functions.py:81-83 | A name inside some fragment is inside the whole text, so the outer `in` guard never hides a naming fragment. |
| Text.LastContaining | scripts/python/functions.py:82-88 | The index of the last fragment containing the name, or `None` iff none does. |
| Text.FirstDigitRun | scripts/python/functions.py:176 | `None` iff the text has no digit. Otherwise it gives the bounds of the first maximal digit run. |
| Text.FirstDigitRunIs | scripts/python/functions.py:176 | Any span that is the leftmost maximal run of digits is exactly what the first `\d+` match returns. |
| Text.FirstDigitRunUnique | scripts/python/functions.py:176 | The first maximal digit run is unique. |
| Text.DecimalValue | scripts/python/functions.py:86 | No `ensures`: the value of a string of decimal digits, as `int(...)` reads it at line 86 (and lines 101, 176 and 186). `DecimalRoundTrip` pins it down. |
| Text.DecimalRoundTrip | scripts/python/functions.py:86 | Reading the decimal digits of `n` gives back `n`. |
| Text.NumberAfterText | scripts/python/functions.py:176 | In `prefix + digits(n) + suffix`, where the prefix has no digit and the suffix does not start with one, the first digit run is exactly `digits(n)`. |

## Left out

- The provider calls (`statsapi.boxscore_data`, `statsapi.schedule`) become parameters: a `BoxScore` value, `fetch: int -> BoxScore` and `lookup: int -> seq<ScheduleEntry>`. The provider's data is assumed well formed: every key and `info[0]` is present.
- `get_team_data` is not part of this model. It is a plain loop with a provider call.
- `scripts/python/update_db.py`, `initial_db_load.py` and the SQL, HTTP and warehouse glue are not part of this model.
- The pandas mechanics are modelled by datatypes and sequences: DataFrames, column selection, `concat`, and `astype(float)`. Counts stay integers, and a record holds only the columns the code keeps. A `ScheduleEntry` carries the four dropped columns (`home_pitcher_note`, `away_pitcher_note`, `national_broadcasts`, `summary`) plus the game id, date, status and the two team ids. The provider's other kept columns are not modelled.
- The `tqdm` progress bars are not modelled.
- Pitching.Outs: innings pitched is an exact count of tenths. The code computes outs in floating point (`10 * (ip - int(ip))`), and its rounding is not modelled. `Pitching.OutsOfInnings` states the same exact arithmetic.
- Text.IsDigit: only the ASCII digits `0`-`9` are digits. Python's `str.isdigit` and `\d` also accept other Unicode digits.
- Batting.ScanFragments: requires at least one fragment. `str.split` always yields one, so every caller meets this.
- Batting.BatterSide: requires an HBP list, when there is one, to have at least one fragment, for the same reason. Batting.FillBatterColumns has the same requirement.
- The HBP list in `game_analysis_pitching` is computed but never used. Only the HBP text matters there.

=== FILE: aggregate.dfy ===
/** The list aggregators: run a reconciler over a list of game ids and
    stack the per-game tables, in the order of the ids. The box-score
    provider is the parameter `fetch`. */
module Aggregate {
  import opened Wrappers
  import opened BoxScoreData
  import opened Batting
  import opened Pitching

  /** The loop `final = result` for the first game, `final =
      concat([final, result])` after it: the first failing game stops the
      run, and with no game at all `final` is never bound. */
  function GameList<T>(perGame: seq<Outcome<seq<T>>>): (r: Outcome<seq<T>>)
    ensures |perGame| == 0 ==> r == Err(NoGames)
    ensures r.Err? && |perGame| > 0 ==> exists k :: 0 <= k < |perGame| && perGame[k] == Err(r.error)
  {
    if |perGame| == 0 then Err(NoGames)
    else
      match Collect(perGame)
      case Err(e) => Err(e)
      case Ok(tables) => Ok(Flatten(tables))
  }

  /** The run succeeds exactly when there is a game and every game
      succeeds. */
  lemma GameListOk<T>(perGame: seq<Outcome<seq<T>>>)
    ensures GameList(perGame).Ok? <==> |perGame| > 0 && forall k :: 0 <= k < |perGame| ==> perGame[k].Ok?
  {
  }

  /** A failing run reports the failure of its earliest failing game. */
  lemma GameListFirstFailure<T>(perGame: seq<Outcome<seq<T>>>, k: nat)
    requires k < |perGame| && perGame[k].Err?
    requires forall j :: 0 <= j < k ==> perGame[j].Ok?
    ensures GameList(perGame) == Err(perGame[k].error)
  {
    CollectFirstFailure(perGame, k);
  }

  /** The rows games 0..k-1 produce, a failed game counting as none. */
  function RowsBefore<T>(perGame: seq<Outcome<seq<T>>>, k: nat): nat
    requires k <= |perGame|
  {
    if k == 0 then 0
    else RowsBefore(perGame, k - 1) + (if perGame[k - 1].Ok? then |perGame[k - 1].value| else 0)
  }

  lemma {:induction false} RowsBeforeTables<T>(perGame: seq<Outcome<seq<T>>>, tables: seq<seq<T>>, k: nat)
    requires |tables| == |perGame| && k <= |perGame|
    requires forall j :: 0 <= j < |perGame| ==> perGame[j] == Ok(tables[j])
    ensures RowsBefore(perGame, k) == TotalRows(tables[..k])
  {
    if k > 0 {
      RowsBeforeTables(perGame, tables, k - 1);
      assert tables[..k][..k - 1] == tables[..k - 1];
    }
  }

  /** part occurs in all starting at index lo. */
  ghost predicate SliceAt<T>(all: seq<T>, lo: nat, part: seq<T>)
  {
    lo + |part| <= |all| && all[lo..lo + |part|] == part
  }

  /** A successful run holds the rows of all its games. */
  lemma GameListRows<T>(perGame: seq<Outcome<seq<T>>>)
    requires GameList(perGame).Ok?
    ensures |GameList(perGame).value| == RowsBefore(perGame, |perGame|)
  {
    var tables := Collect(perGame).value;
    assert forall j :: 0 <= j < |perGame| ==> perGame[j] == Ok(tables[j]);
    FlattenLength(tables);
    RowsBeforeTables(perGame, tables, |perGame|);
    assert tables[..|perGame|] == tables;
  }

  /** In a successful run, game k's table sits, unchanged, right after the
      rows of games 0..k-1. */
  lemma GameListLayout<T>(perGame: seq<Outcome<seq<T>>>, k: nat)
    requires GameList(perGame).Ok? && k < |perGame|
    ensures perGame[k].Ok?
    ensures SliceAt(GameList(perGame).value, RowsBefore(perGame, k), perGame[k].value)
  {
    var tables := Collect(perGame).value;
    assert forall j :: 0 <= j < |perGame| ==> perGame[j] == Ok(tables[j]);
    FlattenSlice(tables, k);
    RowsBeforeTables(perGame, tables, k);
    assert SliceAt(Flatten(tables), TotalRows(tables[..k]), tables[k]);
  }


  /** One more game read by the aggregator loop: its table is appended. */
  lemma GameListStep<T>(perGame: seq<Outcome<seq<T>>>, tables: seq<seq<T>>, table: seq<T>)
    requires |tables| < |perGame| && perGame[|tables|] == Ok(table)
    requires forall k :: 0 <= k < |tables| ==> perGame[k] == Ok(tables[k])
    ensures forall k :: 0 <= k <= |tables| ==> perGame[k] == Ok((tables + [table])[k])
    ensures Flatten(tables + [table]) == (if |tables| == 0 then table else Flatten(tables) + table)
  {
    assert (tables + [table])[..|tables|] == tables;
    if |tables| == 0 {
      assert Flatten(tables) + table == table;
    }
  }

  /** Every game read: the aggregator's table is the flattened tables. */
  lemma GameListDone<T>(perGame: seq<Outcome<seq<T>>>, tables: seq<seq<T>>)
    requires |tables| == |perGame| > 0
    requires forall k :: 0 <= k < |tables| ==> perGame[k] == Ok(tables[k])
    ensures GameList(perGame) == Ok(Flatten(tables))
  {
    assert Collect(perGame).value == tables;
  }

  function BattingGames(ids: seq<int>, fetch: int -> BoxScore): seq<Outcome<seq<BattingRecord>>>
  {
    seq(|ids|, k requires 0 <= k < |ids| => BattingGame(ids[k], fetch(ids[k])))
  }

  function PitchingGames(ids: seq<int>, fetch: int -> BoxScore): seq<Outcome<seq<PitchingRecord>>>
  {
    seq(|ids|, k requires 0 <= k < |ids| => PitchingGame(ids[k], fetch(ids[k])))
  }

  /** What `game_list_analysis_batting` returns. */
  function BattingList(ids: seq<int>, fetch: int -> BoxScore): (r: Outcome<seq<BattingRecord>>)
    ensures |ids| == 0 ==> r == Err(NoGames)
    ensures r.Err? ==> r.error in {NoGames, UnboundHbpList, NotAnInteger, EmptySide}
    ensures |ids| > 0 && r.Err? ==> r.error != NoGames
  {
    GameList(BattingGames(ids, fetch))
  }

  /** What `game_list_analysis_pitching` returns. */
  function PitchingList(ids: seq<int>, fetch: int -> BoxScore): (r: Outcome<seq<PitchingRecord>>)
    ensures |ids| == 0 ==> r == Err(NoGames)
    ensures r.Err? ==> r.error in {NoGames, MissingBattersFaced, NoDigitRun, EmptySide}
    ensures |ids| > 0 && r.Err? ==> r.error != NoGames
  {
    GameList(PitchingGames(ids, fetch))
  }

  /** `game_list_analysis_batting`. */
  method AnalyseBattingList(ids: seq<int>, fetch: int -> BoxScore) returns (r: Outcome<seq<BattingRecord>>)
    ensures r == BattingList(ids, fetch)
  {
    ghost var perGame := BattingGames(ids, fetch);
    ghost var tables: seq<seq<BattingRecord>> := [];
    var final: Option<seq<BattingRecord>> := None;
    var i := 0;
    while i < |ids|
      invariant 0 <= i <= |ids| && |tables| == i
      invariant forall k :: 0 <= k < i ==> perGame[k] == Ok(tables[k])
      invariant final == if i == 0 then None else Some(Flatten(tables))
    {
      var result := ReconcileBatting(ids[i], fetch(ids[i]));
      if result.Err? {
        GameListFirstFailure(perGame, i);
        return Err(result.error);
      }
      if i == 0 {
        final := Some(result.value);
      } else {
        final := Some(final.value + result.value);
      }
      GameListStep(perGame, tables, result.value);
      tables := tables + [result.value];
      i := i + 1;
    }
    if final.None? {
      return Err(NoGames);
    }
    GameListDone(perGame, tables);
    r := Ok(final.value);
  }

  /** `game_list_analysis_pitching`. */
  method AnalysePitchingList(ids: seq<int>, fetch: int -> BoxScore) returns (r: Outcome<seq<PitchingRecord>>)
    ensures r == PitchingList(ids, fetch)
  {
    ghost var perGame := PitchingGames(ids, fetch);
    ghost var tables: seq<seq<PitchingRecord>> := [];
    var final: Option<seq<PitchingRecord>> := None;
    var i := 0;
    while i < |ids|
      invariant 0 <= i <= |ids| && |tables| == i
      invariant forall k :: 0 <= k < i ==> perGame[k] == Ok(tables[k])
      invariant final == if i == 0 then None else Some(Flatten(tables))
    {
      var result := ReconcilePitching(ids[i], fetch(ids[i]));
      if result.Err? {
        GameListFirstFailure(perGame, i);
        return Err(result.error);
      }
      if i == 0 {
        final := Some(result.value);
      } else {
        final := Some(final.value + result.value);
      }
      GameListStep(perGame, tables, result.value);
      tables := tables + [result.value];
      i := i + 1;
    }
    if final.None? {
      return Err(NoGames);
    }
    GameListDone(perGame, tables);
    r := Ok(final.value);
  }

  /** The batting rows games ids[0..] contribute, one per non-placeholder
      batter of either side. */
  function BattingRowTotal(ids: seq<int>, fetch: int -> BoxScore): nat
  {
    if |ids| == 0 then 0
    else
      var box := fetch(ids[|ids| - 1]);
      BattingRowTotal(ids[..|ids| - 1], fetch) + RealBatters(box.homeBatters) + RealBatters(box.awayBatters)
  }

  /** The pitching rows games ids[0..] contribute, one per non-placeholder
      pitcher of either side. */
  function PitchingRowTotal(ids: seq<int>, fetch: int -> BoxScore): nat
  {
    if |ids| == 0 then 0
    else
      var box := fetch(ids[|ids| - 1]);
      PitchingRowTotal(ids[..|ids| - 1], fetch) + RealPitchers(box.homePitchers) + RealPitchers(box.awayPitchers)
  }

  lemma {:induction false} BattingRowsBefore(ids: seq<int>, fetch: int -> BoxScore, k: nat)
    requires k <= |ids|
    requires BattingList(ids, fetch).Ok?
    ensures RowsBefore(BattingGames(ids, fetch), k) == BattingRowTotal(ids[..k], fetch)
  {
    if k > 0 {
      var games := BattingGames(ids, fetch);
      var box := fetch(ids[k - 1]);
      BattingRowsBefore(ids, fetch, k - 1);
      assert ids[..k][..k - 1] == ids[..k - 1];
      assert games[k - 1] == BattingGame(ids[k - 1], box);
      assert games[k - 1].Ok? by { GameListOk(games); }
      assert |games[k - 1].value| == RealBatters(box.homeBatters) + RealBatters(box.awayBatters) by {
        BattingRowsShape(ids[k - 1], box);
      }
    }
  }

  lemma {:induction false} PitchingRowsBefore(ids: seq<int>, fetch: int -> BoxScore, k: nat)
    requires k <= |ids|
    requires PitchingList(ids, fetch).Ok?
    ensures RowsBefore(PitchingGames(ids, fetch), k) == PitchingRowTotal(ids[..k], fetch)
  {
    if k > 0 {
      var games := PitchingGames(ids, fetch);
      var box := fetch(ids[k - 1]);
      PitchingRowsBefore(ids, fetch, k - 1);
      assert ids[..k][..k - 1] == ids[..k - 1];
      assert games[k - 1] == PitchingGame(ids[k - 1], box);
      assert games[k - 1].Ok? by { GameListOk(games); }
      assert |games[k - 1].value| == RealPitchers(box.homePitchers) + RealPitchers(box.awayPitchers) by {
        PitchingRowsShape(ids[k - 1], box);
      }
    }
  }

  /** A successful batting run has one row per non-placeholder batter of
      every game. */
  lemma BattingListRows(ids: seq<int>, fetch: int -> BoxScore)
    requires BattingList(ids, fetch).Ok?
    ensures |BattingList(ids, fetch).value| == BattingRowTotal(ids, fetch)
  {
    var games := BattingGames(ids, fetch);
    GameListRows(games);
    BattingRowsBefore(ids, fetch, |ids|);
    assert ids[..|ids|] == ids;
  }

  /** The rows of game k of a successful batting run are that game's own
      table, placed after the rows of the games before it. */
  lemma BattingListLayout(ids: seq<int>, fetch: int -> BoxScore, k: nat)
    requires BattingList(ids, fetch).Ok? && k < |ids|
    ensures BattingGame(ids[k], fetch(ids[k])).Ok?
    ensures SliceAt(BattingList(ids, fetch).value, BattingRowTotal(ids[..k], fetch), BattingGame(ids[k], fetch(ids[k])).value)
  {
    var games := BattingGames(ids, fetch);
    GameListOk(games);
    GameListLayout(games, k);
    BattingRowsBefore(ids, fetch, k);
    assert games[k] == BattingGame(ids[k], fetch(ids[k]));
  }


  /** A successful pitching run has one row per non-placeholder pitcher of
      every game. */
  lemma PitchingListRows(ids: seq<int>, fetch: int -> BoxScore)
    requires PitchingList(ids, fetch).Ok?
    ensures |PitchingList(ids, fetch).value| == PitchingRowTotal(ids, fetch)
  {
    var games := PitchingGames(ids, fetch);
    GameListRows(games);
    PitchingRowsBefore(ids, fetch, |ids|);
    assert ids[..|ids|] == ids;
  }

  /** The rows of game k of a successful pitching run are that game's own
      table, placed after the rows of the games before it. */
  lemma PitchingListLayout(ids: seq<int>, fetch: int -> BoxScore, k: nat)
    requires PitchingList(ids, fetch).Ok? && k < |ids|
    ensures PitchingGame(ids[k], fetch(ids[k])).Ok?
    ensures SliceAt(PitchingList(ids, fetch).value, PitchingRowTotal(ids[..k], fetch), PitchingGame(ids[k], fetch(ids[k])).value)
  {
    var games := PitchingGames(ids, fetch);
    GameListOk(games);
    GameListLayout(games, k);
    PitchingRowsBefore(ids, fetch, k);
    assert games[k] == PitchingGame(ids[k], fetch(ids[k]));
  }

}

=== FILE: batting.dfy ===
/** The batting reconciler: hit-by-pitch (hbp) and sacrifice-fly (sf) counts
    for every batter of one game, read off the free-text game info. */
module Batting {
  import opened Wrappers
  import opened Text
  import opened BoxScoreData

  /** One output row: the selected columns of a batter line, the derived
      hbp and sf, and the game and team it belongs to. */
  datatype BattingRecord = BattingRecord(
    personId: int, stats: BattingStats, hbp: nat, sf: nat, gameId: int, teamId: int)

  /** The `;`-separated fragments of the HBP entry, or None when the game
      info has no HBP entry (the fragment list is then never bound). */
  function HbpFragments(info: seq<Field>): (r: Option<seq<string>>)
    ensures r.None? <==> FirstValue(info, HBP_LABEL).None?
    ensures r.Some? ==> |r.value| > 0 && Join(r.value, ';') == FirstValue(info, HBP_LABEL).value
  {
    match FirstValue(info, HBP_LABEL)
    case None => None
    case Some(v) =>
      JoinSplit(v, ';');
      Some(Split(v, ';'))
  }

  /** `int(re.findall(r"\d+\.?\d*", s)[0])` on a fragment with a digit: the
      token starts at the first run of digits; when a '.' follows the run the
      token is a decimal and `int` refuses it. */
  function FirstIntToken(s: string): (r: Outcome<nat>)
    requires HasDigit(s)
    ensures r.Err? ==> r.error == NotAnInteger && exists j :: 0 < j < |s| && s[j] == '.' && IsDigit(s[j - 1])
  {
    var (i, j) := FirstDigitRun(s).value;
    if j < |s| && s[j] == '.' then
      assert s[i..j][j - 1 - i] == s[j - 1];
      Err(NotAnInteger)
    else Ok(DecimalValue(s[i..j]))
  }

  /** The count a fragment naming a batter gives: its first number, or 1
      when it has no digit at all. */
  function FragmentHbp(s: string): (r: Outcome<nat>)
    ensures r.Err? ==> r.error == NotAnInteger && exists j :: 0 < j < |s| && s[j] == '.' && IsDigit(s[j - 1])
  {
    if HasDigit(s) then FirstIntToken(s) else Ok(1)
  }

  /** Every fragment naming the batter can be read. */
  predicate Readable(fs: seq<string>, name: string)
  {
    forall k :: 0 <= k < |fs| && Contains(fs[k], name) ==> FragmentHbp(fs[k]).Ok?
  }

  /** The count of the last fragment naming the batter, 0 if none does. */
  function LastFragmentHbp(fs: seq<string>, name: string): nat
    requires Readable(fs, name)
  {
    match LastContaining(fs, name)
    case None => 0
    case Some(k) => FragmentHbp(fs[k]).value
  }
  /** Later fragments overwrite earlier ones: the value is that of the last
      fragment naming the player, and 0 when none does. */
  lemma LastFragmentHbpIsLast(fs: seq<string>, name: string, last: Option<nat>)
    requires Readable(fs, name)
    requires last.None? ==> forall j :: 0 <= j < |fs| ==> !Contains(fs[j], name)
    requires last.Some? ==> last.value < |fs| && Contains(fs[last.value], name)
                            && forall j :: last.value < j < |fs| ==> !Contains(fs[j], name)
    ensures last.None? ==> LastFragmentHbp(fs, name) == 0
    ensures last.Some? ==> LastFragmentHbp(fs, name) == FragmentHbp(fs[last.value]).value
  {
    if last.Some? {
      assert LastContaining(fs, name) == last;
    }
  }


  /** Reading one more fragment: it must be readable if it names the
      batter, and then its count replaces the one so far. */
  lemma ScanStep(fs: seq<string>, name: string, j: nat)
    requires j < |fs| && Readable(fs[..j], name)
    ensures Readable(fs[..j + 1], name) <==> (Contains(fs[j], name) ==> FragmentHbp(fs[j]).Ok?)
    ensures Readable(fs[..j + 1], name) ==>
              LastFragmentHbp(fs[..j + 1], name)
              == if Contains(fs[j], name) then FragmentHbp(fs[j]).value else LastFragmentHbp(fs[..j], name)
  {
    assert fs[..j + 1][..j] == fs[..j];
    assert fs[..j + 1][j] == fs[j];
  }

  /** (hbp, sf) of one batter, given the HBP text, its fragments and the
      SF text of the batter's own team. The fragments are only looked at
      when the name occurs in the HBP text, and sf is only set there too. */
  function BatterColumns(name: string, hbpText: string, hbpList: Option<seq<string>>, sfText: string)
    : (r: Outcome<(nat, nat)>)
    ensures !Contains(hbpText, name) ==> r == Ok((0, 0))
    ensures r.Err? ==> (r.error == UnboundHbpList && hbpList.None?) || (r.error == NotAnInteger && hbpList.Some?)
    ensures r.Ok? ==> r.value.1 <= 1 && (r.value.1 == 1 ==> Contains(sfText, name))
  {
    if !Contains(hbpText, name) then Ok((0, 0))
    else if hbpList.None? then Err(UnboundHbpList)
    else if !Readable(hbpList.value, name) then Err(NotAnInteger)
    else Ok((LastFragmentHbp(hbpList.value, name), if Contains(sfText, name) then 1 else 0))
  }

  /** BatterColumns for every line of one side, in order. */
  function Derivations(rows: seq<BatterLine>, hbpText: string, hbpList: Option<seq<string>>, sfText: string)
    : seq<Outcome<(nat, nat)>>
  {
    seq(|rows|, k requires 0 <= k < |rows| => BatterColumns(rows[k].name, hbpText, hbpList, sfText))
  }

  function Record(line: BatterLine, col: (nat, nat), gameId: int, teamId: int): BattingRecord
  {
    BattingRecord(line.personId, line.stats, col.0, col.1, gameId, teamId)
  }

  /** Number of lines that are not the team-totals placeholder. */
  function RealBatters(rows: seq<BatterLine>): nat
  {
    if |rows| == 0 then 0
    else (if rows[0].personId != PLACEHOLDER_ID then 1 else 0) + RealBatters(rows[1..])
  }

  /** One side's output: placeholder rows dropped, columns selected, game
      and team id attached. */
  function SideRows(gameId: int, teamId: int, rows: seq<BatterLine>, cols: seq<(nat, nat)>)
    : (out: seq<BattingRecord>)
    requires |cols| == |rows|
    ensures |out| == RealBatters(rows)
    ensures forall i :: 0 <= i < |out| ==> out[i].personId != PLACEHOLDER_ID
  {
    if |rows| == 0 then []
    else
      var rest := SideRows(gameId, teamId, rows[1..], cols[1..]);
      if rows[0].personId == PLACEHOLDER_ID then rest
      else
        var out := [Record(rows[0], cols[0], gameId, teamId)] + rest;
        assert forall i :: 1 <= i < |out| ==> out[i] == rest[i - 1];
        out
  }

  /** No row is invented: row i is the row of some line k. */
  lemma {:induction false} SideSound(gameId: int, teamId: int, rows: seq<BatterLine>, cols: seq<(nat, nat)>, i: nat)
    returns (k: nat)
    requires |cols| == |rows| && i < |SideRows(gameId, teamId, rows, cols)|
    ensures k < |rows| && SideRows(gameId, teamId, rows, cols)[i] == Record(rows[k], cols[k], gameId, teamId)
  {
    var out := SideRows(gameId, teamId, rows, cols);
    var rest := SideRows(gameId, teamId, rows[1..], cols[1..]);
    if rows[0].personId == PLACEHOLDER_ID {
      assert out == rest;
      var k' := SideSound(gameId, teamId, rows[1..], cols[1..], i);
      assert rows[1..][k'] == rows[k' + 1] && cols[1..][k'] == cols[k' + 1];
      k := k' + 1;
    } else if i == 0 {
      k := 0;
    } else {
      assert out == [Record(rows[0], cols[0], gameId, teamId)] + rest;
      var k' := SideSound(gameId, teamId, rows[1..], cols[1..], i - 1);
      assert rows[1..][k'] == rows[k' + 1] && cols[1..][k'] == cols[k' + 1];
      k := k' + 1;
    }
  }

  /** No line is lost: every non-placeholder line has its row, at index i. */
  lemma {:induction false} SideComplete(gameId: int, teamId: int, rows: seq<BatterLine>, cols: seq<(nat, nat)>, j: nat)
    returns (i: nat)
    requires |cols| == |rows| && j < |rows| && rows[j].personId != PLACEHOLDER_ID
    ensures i < |SideRows(gameId, teamId, rows, cols)|
    ensures SideRows(gameId, teamId, rows, cols)[i] == Record(rows[j], cols[j], gameId, teamId)
  {
    var out := SideRows(gameId, teamId, rows, cols);
    var rest := SideRows(gameId, teamId, rows[1..], cols[1..]);
    if j == 0 {
      assert out == [Record(rows[0], cols[0], gameId, teamId)] + rest;
      i := 0;
    } else {
      var i' := SideComplete(gameId, teamId, rows[1..], cols[1..], j - 1);
      assert rows[1..][j - 1] == rows[j] && cols[1..][j - 1] == cols[j];
      if rows[0].personId == PLACEHOLDER_ID {
        assert out == rest;
        i := i';
      } else {
        assert out == [Record(rows[0], cols[0], gameId, teamId)] + rest;
        i := i' + 1;
      }
    }
  }

  /** Row i of out is the row of line idx[i], a non-placeholder line. */
  ghost predicate RowsAt(out: seq<BattingRecord>, idx: seq<nat>, rows: seq<BatterLine>, cols: seq<(nat, nat)>, gameId: int, teamId: int)
    requires |cols| == |rows|
  {
    |idx| == |out|
    && forall i :: 0 <= i < |idx| ==>
         idx[i] < |rows| && rows[idx[i]].personId != PLACEHOLDER_ID
         && out[i] == Record(rows[idx[i]], cols[idx[i]], gameId, teamId)
  }

  /** Every non-placeholder line is among idx. */
  ghost predicate CoversReal(idx: seq<nat>, rows: seq<BatterLine>)
  {
    forall k :: 0 <= k < |rows| && rows[k].personId != PLACEHOLDER_ID ==> k in idx
  }

  /** out is the sequence of rows of lines idx of one side: the indices
      strictly increase and take in every non-placeholder line. */
  ghost predicate Selects(out: seq<BattingRecord>, idx: seq<nat>, rows: seq<BatterLine>, cols: seq<(nat, nat)>, gameId: int, teamId: int)
    requires |cols| == |rows|
  {
    RowsAt(out, idx, rows, cols, gameId, teamId) && Increasing(idx) && CoversReal(idx, rows)
  }

  /** Rows of the lines after the first are rows of the whole side at the
      shifted indices. */
  lemma RowsAtShift(out: seq<BattingRecord>, idx: seq<nat>, rows: seq<BatterLine>, cols: seq<(nat, nat)>, gameId: int, teamId: int)
    requires |cols| == |rows| && |rows| > 0
    requires RowsAt(out, idx, rows[1..], cols[1..], gameId, teamId)
    ensures RowsAt(out, Shift(idx), rows, cols, gameId, teamId)
  {
    var shifted := Shift(idx);
    forall i | 0 <= i < |idx|
      ensures rows[shifted[i]] == rows[1..][idx[i]] && cols[shifted[i]] == cols[1..][idx[i]]
    {
    }
  }

  /** A kept first line puts its row in front. */
  lemma RowsAtCons(out: seq<BattingRecord>, idx: seq<nat>, rows: seq<BatterLine>, cols: seq<(nat, nat)>, gameId: int, teamId: int)
    requires |cols| == |rows| && |rows| > 0 && rows[0].personId != PLACEHOLDER_ID
    requires RowsAt(out, Shift(idx), rows, cols, gameId, teamId)
    ensures RowsAt([Record(rows[0], cols[0], gameId, teamId)] + out, [0] + Shift(idx), rows, cols, gameId, teamId)
  {
    var idx0 := [0] + Shift(idx);
    var out0 := [Record(rows[0], cols[0], gameId, teamId)] + out;
    assert forall i :: 0 < i < |idx0| ==> idx0[i] == Shift(idx)[i - 1] && out0[i] == out[i - 1];
  }

  /** A non-placeholder line after the first is among the shifted indices. */
  lemma CoversShift(idx: seq<nat>, rows: seq<BatterLine>)
    requires |rows| > 0 && CoversReal(idx, rows[1..])
    ensures forall k :: 1 <= k < |rows| && rows[k].personId != PLACEHOLDER_ID ==> k in Shift(idx)
  {
    var shifted := Shift(idx);
    forall k | 1 <= k < |rows| && rows[k].personId != PLACEHOLDER_ID
      ensures k in shifted
    {
      assert rows[1..][k - 1] == rows[k];
      var i :| 0 <= i < |idx| && idx[i] == k - 1;
      assert shifted[i] == k;
    }
  }

  /** The filter keeps line order: row i is the row of line idx[i], the
      indices strictly increase, and every non-placeholder line is among
      them, so each such line gives exactly one row. */
  lemma {:induction false} SideOrder(gameId: int, teamId: int, rows: seq<BatterLine>, cols: seq<(nat, nat)>)
    returns (idx: seq<nat>)
    requires |cols| == |rows|
    ensures Selects(SideRows(gameId, teamId, rows, cols), idx, rows, cols, gameId, teamId)
  {
    if |rows| == 0 {
      return [];
    }
    var rest := SideRows(gameId, teamId, rows[1..], cols[1..]);
    var idx' := SideOrder(gameId, teamId, rows[1..], cols[1..]);
    RowsAtShift(rest, idx', rows, cols, gameId, teamId);
    CoversShift(idx', rows);
    ShiftIncreasing(idx');
    if rows[0].personId == PLACEHOLDER_ID {
      idx := Shift(idx');
    } else {
      RowsAtCons(rest, idx', rows, cols, gameId, teamId);
      idx := [0] + Shift(idx');
      assert SideRows(gameId, teamId, rows, cols) == [Record(rows[0], cols[0], gameId, teamId)] + rest;
    }
  }

  /** What `game_analysis_batter` returns for a game: home rows, then away
      rows, or the failure that stops it. */
  function BattingGame(gameId: int, box: BoxScore): (r: Outcome<seq<BattingRecord>>)
    ensures r.Ok? ==> |box.homeBatters| > 0 && |box.awayBatters| > 0
                      && |r.value| == RealBatters(box.homeBatters) + RealBatters(box.awayBatters)
    ensures r.Err? ==> r.error == UnboundHbpList || r.error == NotAnInteger || r.error == EmptySide
  {
    var hbpText := TextOrEmpty(box.gameBoxInfo, HBP_LABEL);
    var hbpList := HbpFragments(box.gameBoxInfo);
    var home := Collect(Derivations(box.homeBatters, hbpText, hbpList, TextOrEmpty(box.homeFields, SF_LABEL)));
    var away := Collect(Derivations(box.awayBatters, hbpText, hbpList, TextOrEmpty(box.awayFields, SF_LABEL)));
    if home.Err? then Err(home.error)
    else if away.Err? then Err(away.error)
    else if |box.homeBatters| == 0 || |box.awayBatters| == 0 then Err(EmptySide)
    else Ok(SideRows(gameId, box.homeId, box.homeBatters, home.value)
            + SideRows(gameId, box.awayId, box.awayBatters, away.value))
  }

  /** The loop over the HBP fragments for the batter in row i: a fragment
      naming the batter overwrites hbp[i]; every pass sets sf[i] when the
      name is in the SF text. */
  method ScanFragments(name: string, fs: seq<string>, sfText: string, hbp: array<nat>, sf: array<nat>, i: nat)
    returns (failure: Option<Failure>)
    requires hbp != sf && i < hbp.Length && i < sf.Length
    requires |fs| > 0 && hbp[i] == 0 && sf[i] == 0
    modifies hbp, sf
    ensures hbp[..] == old(hbp[..])[i := hbp[i]]
    ensures sf[..] == old(sf[..])[i := sf[i]]
    ensures failure.None? <==> Readable(fs, name)
    ensures failure.Some? ==> failure.value == NotAnInteger
    ensures failure.None? ==> hbp[i] == LastFragmentHbp(fs, name) && sf[i] == if Contains(sfText, name) then 1 else 0
  {
    var j := 0;
    while j < |fs|
      invariant 0 <= j <= |fs|
      invariant hbp[..] == old(hbp[..])[i := hbp[i]]
      invariant sf[..] == old(sf[..])[i := sf[i]]
      invariant Readable(fs[..j], name)
      invariant hbp[i] == LastFragmentHbp(fs[..j], name)
      invariant sf[i] == if j > 0 && Contains(sfText, name) then 1 else 0
    {
      var s := fs[j];
      ScanStep(fs, name, j);
      if Contains(s, name) {
        var count := FragmentHbp(s);
        if count.Err? {
          assert !Readable(fs, name) by { assert Contains(fs[j], name) && FragmentHbp(fs[j]).Err?; }
          return Some(count.error);
        }
        hbp[i] := count.value;
      }
      if Contains(sfText, name) {
        sf[i] := 1;
      }
      j := j + 1;
    }
    assert fs[..j] == fs;
    return None;
  }

  /** The loop over one side's batters: the hbp and sf columns start at 0
      and are overwritten in place. */
  method FillBatterColumns(rows: seq<BatterLine>, hbpText: string, hbpList: Option<seq<string>>, sfText: string,
                           hbp: array<nat>, sf: array<nat>) returns (failure: Option<Failure>)
    requires hbp != sf && hbp.Length == |rows| && sf.Length == |rows|
    requires hbpList.Some? ==> |hbpList.value| > 0
    requires forall k :: 0 <= k < |rows| ==> hbp[k] == 0 && sf[k] == 0
    modifies hbp, sf
    ensures failure.None? ==> Collect(Derivations(rows, hbpText, hbpList, sfText)) == Ok(Zip(hbp[..], sf[..]))
    ensures failure.Some? ==> Collect(Derivations(rows, hbpText, hbpList, sfText)) == Err(failure.value)
  {
    ghost var d := Derivations(rows, hbpText, hbpList, sfText);
    var i := 0;
    while i < |rows|
      invariant 0 <= i <= |rows|
      invariant forall k :: 0 <= k < i ==> d[k] == Ok((hbp[k], sf[k]))
      invariant forall k :: i <= k < |rows| ==> hbp[k] == 0 && sf[k] == 0
    {
      var name := rows[i].name;
      assert d[i] == BatterColumns(name, hbpText, hbpList, sfText);
      if Contains(hbpText, name) {
        if hbpList.None? {
          CollectFirstFailure(d, i);
          return Some(UnboundHbpList);
        }
        failure := ScanFragments(name, hbpList.value, sfText, hbp, sf, i);
        if failure.Some? {
          CollectFirstFailure(d, i);
          return failure;
        }
      }
      i := i + 1;
    }
    assert Collect(d).value == Zip(hbp[..], sf[..]);
    return None;
  }

  /** One side's table with its hbp and sf columns added at 0 and filled by
      the loop over its batters. */
  method BatterSide(rows: seq<BatterLine>, hbpText: string, hbpList: Option<seq<string>>, sfText: string)
    returns (r: Outcome<seq<(nat, nat)>>)
    requires hbpList.Some? ==> |hbpList.value| > 0
    ensures r == Collect(Derivations(rows, hbpText, hbpList, sfText))
  {
    var hbp := new nat[|rows|](_ => 0);
    var sf := new nat[|rows|](_ => 0);
    var failure := FillBatterColumns(rows, hbpText, hbpList, sfText, hbp, sf);
    if failure.Some? {
      return Err(failure.value);
    }
    return Ok(Zip(hbp[..], sf[..]));
  }

  /** `game_analysis_batter` on the box score of one game. */
  method ReconcileBatting(gameId: int, box: BoxScore) returns (r: Outcome<seq<BattingRecord>>)
    ensures r == BattingGame(gameId, box)
  {
    var hbpText := TextOrEmpty(box.gameBoxInfo, HBP_LABEL);
    var hbpList := HbpFragments(box.gameBoxInfo);
    var homeSfText := TextOrEmpty(box.homeFields, SF_LABEL);
    var awaySfText := TextOrEmpty(box.awayFields, SF_LABEL);

    var home := BatterSide(box.homeBatters, hbpText, hbpList, homeSfText);
    if home.Err? {
      return Err(home.error);
    }
    var away := BatterSide(box.awayBatters, hbpText, hbpList, awaySfText);
    if away.Err? {
      return Err(away.error);
    }
    if |box.homeBatters| == 0 || |box.awayBatters| == 0 {
      return Err(EmptySide);
    }
    r := Ok(SideRows(gameId, box.homeId, box.homeBatters, home.value)
            + SideRows(gameId, box.awayId, box.awayBatters, away.value));
  }

  /** rec is the output row of one of the lines of a side. */
  ghost predicate RowOfSide(rec: BattingRecord, gameId: int, teamId: int, lines: seq<BatterLine>,
                            hbpText: string, hbpList: Option<seq<string>>, sfText: string)
  {
    rec.personId != PLACEHOLDER_ID && rec.gameId == gameId && rec.teamId == teamId &&
    exists j :: 0 <= j < |lines| && lines[j].personId == rec.personId && lines[j].stats == rec.stats
                && BatterColumns(lines[j].name, hbpText, hbpList, sfText) == Ok((rec.hbp, rec.sf))
  }

  lemma SideRowsOfSide(gameId: int, teamId: int, lines: seq<BatterLine>,
                       hbpText: string, hbpList: Option<seq<string>>, sfText: string)
    requires Collect(Derivations(lines, hbpText, hbpList, sfText)).Ok?
    ensures var out := SideRows(gameId, teamId, lines, Collect(Derivations(lines, hbpText, hbpList, sfText)).value);
            forall i :: 0 <= i < |out| ==> RowOfSide(out[i], gameId, teamId, lines, hbpText, hbpList, sfText)
  {
    var d := Derivations(lines, hbpText, hbpList, sfText);
    var cols := Collect(d).value;
    var out := SideRows(gameId, teamId, lines, cols);
    forall i | 0 <= i < |out|
      ensures RowOfSide(out[i], gameId, teamId, lines, hbpText, hbpList, sfText)
    {
      var k := SideSound(gameId, teamId, lines, cols, i);
      assert d[k] == BatterColumns(lines[k].name, hbpText, hbpList, sfText);
    }
  }

  /** The two sides a successful game is made of. */
  lemma BattingGameSides(gameId: int, box: BoxScore)
    requires BattingGame(gameId, box).Ok?
    ensures var hbpText := TextOrEmpty(box.gameBoxInfo, HBP_LABEL);
            var hbpList := HbpFragments(box.gameBoxInfo);
            var home := Collect(Derivations(box.homeBatters, hbpText, hbpList, TextOrEmpty(box.homeFields, SF_LABEL)));
            var away := Collect(Derivations(box.awayBatters, hbpText, hbpList, TextOrEmpty(box.awayFields, SF_LABEL)));
            home.Ok? && away.Ok?
            && BattingGame(gameId, box).value
               == SideRows(gameId, box.homeId, box.homeBatters, home.value) + SideRows(gameId, box.awayId, box.awayBatters, away.value)
  {
  }

  /** Home rows followed by away rows, each from its own side's lines. */
  lemma TwoSidesShape(gameId: int, homeId: int, awayId: int, home: seq<BatterLine>, away: seq<BatterLine>,
                      hbpText: string, hbpList: Option<seq<string>>, homeSf: string, awaySf: string)
    requires Collect(Derivations(home, hbpText, hbpList, homeSf)).Ok?
    requires Collect(Derivations(away, hbpText, hbpList, awaySf)).Ok?
    ensures var rows := SideRows(gameId, homeId, home, Collect(Derivations(home, hbpText, hbpList, homeSf)).value)
                        + SideRows(gameId, awayId, away, Collect(Derivations(away, hbpText, hbpList, awaySf)).value);
            var n := RealBatters(home);
            |rows| == n + RealBatters(away)
            && (forall k :: 0 <= k < n ==> RowOfSide(rows[k], gameId, homeId, home, hbpText, hbpList, homeSf))
            && (forall k :: n <= k < |rows| ==> RowOfSide(rows[k], gameId, awayId, away, hbpText, hbpList, awaySf))
  {
    var a := SideRows(gameId, homeId, home, Collect(Derivations(home, hbpText, hbpList, homeSf)).value);
    var b := SideRows(gameId, awayId, away, Collect(Derivations(away, hbpText, hbpList, awaySf)).value);
    SideRowsOfSide(gameId, homeId, home, hbpText, hbpList, homeSf);
    SideRowsOfSide(gameId, awayId, away, hbpText, hbpList, awaySf);
    RowsConcat(a, b, gameId, homeId, awayId, home, away, hbpText, hbpList, homeSf, awaySf);
  }

  /** Rows of the home side followed by rows of the away side keep their sides. */
  lemma RowsConcat(a: seq<BattingRecord>, b: seq<BattingRecord>, gameId: int, homeId: int, awayId: int,
                   home: seq<BatterLine>, away: seq<BatterLine>,
                   hbpText: string, hbpList: Option<seq<string>>, homeSf: string, awaySf: string)
    requires forall i :: 0 <= i < |a| ==> RowOfSide(a[i], gameId, homeId, home, hbpText, hbpList, homeSf)
    requires forall i :: 0 <= i < |b| ==> RowOfSide(b[i], gameId, awayId, away, hbpText, hbpList, awaySf)
    ensures forall k :: 0 <= k < |a| ==> RowOfSide((a + b)[k], gameId, homeId, home, hbpText, hbpList, homeSf)
    ensures forall k :: |a| <= k < |a + b| ==> RowOfSide((a + b)[k], gameId, awayId, away, hbpText, hbpList, awaySf)
  {
    forall k | 0 <= k < |a|
      ensures RowOfSide((a + b)[k], gameId, homeId, home, hbpText, hbpList, homeSf)
    {
      assert (a + b)[k] == a[k];
    }
    forall k | |a| <= k < |a + b|
      ensures RowOfSide((a + b)[k], gameId, awayId, away, hbpText, hbpList, awaySf)
    {
      assert (a + b)[k] == b[k - |a|];
    }
  }

  /** A game's batting rows: one per non-placeholder batter, home rows
      first and then away rows, each tagged with the game id and its own
      side's team id and carrying that batter's stats and derived columns. */
  lemma BattingRowsShape(gameId: int, box: BoxScore)
    requires BattingGame(gameId, box).Ok?
    ensures var rows := BattingGame(gameId, box).value;
            var hbpText := TextOrEmpty(box.gameBoxInfo, HBP_LABEL);
            var hbpList := HbpFragments(box.gameBoxInfo);
            var n := RealBatters(box.homeBatters);
            |rows| == n + RealBatters(box.awayBatters)
            && (forall k :: 0 <= k < n ==>
                  RowOfSide(rows[k], gameId, box.homeId, box.homeBatters, hbpText, hbpList, TextOrEmpty(box.homeFields, SF_LABEL)))
            && (forall k :: n <= k < |rows| ==>
                  RowOfSide(rows[k], gameId, box.awayId, box.awayBatters, hbpText, hbpList, TextOrEmpty(box.awayFields, SF_LABEL)))
  {
    BattingGameSides(gameId, box);
    TwoSidesShape(gameId, box.homeId, box.awayId, box.homeBatters, box.awayBatters,
                  TextOrEmpty(box.gameBoxInfo, HBP_LABEL), HbpFragments(box.gameBoxInfo),
                  TextOrEmpty(box.homeFields, SF_LABEL), TextOrEmpty(box.awayFields, SF_LABEL));
  }

  /** Every non-placeholder line has a row with its person id and stats
      among rows[lo..hi]. */
  ghost predicate BattersCovered(rows: seq<BattingRecord>, lo: int, hi: int, lines: seq<BatterLine>)
  {
    forall j :: 0 <= j < |lines| && lines[j].personId != PLACEHOLDER_ID ==>
      exists k :: lo <= k < hi && 0 <= k < |rows| && rows[k].personId == lines[j].personId && rows[k].stats == lines[j].stats
  }

  lemma TwoSidesComplete(gameId: int, homeId: int, awayId: int, home: seq<BatterLine>, away: seq<BatterLine>,
                  hc: seq<(nat, nat)>, ac: seq<(nat, nat)>)
    requires |hc| == |home| && |ac| == |away|
    ensures var a := SideRows(gameId, homeId, home, hc);
            var rows := a + SideRows(gameId, awayId, away, ac);
            BattersCovered(rows, 0, |a|, home) && BattersCovered(rows, |a|, |rows|, away)
  {
    var a := SideRows(gameId, homeId, home, hc);
    var b := SideRows(gameId, awayId, away, ac);
    var rows := a + b;
    forall j | 0 <= j < |home| && home[j].personId != PLACEHOLDER_ID
      ensures exists k :: 0 <= k < |a| && 0 <= k < |rows| && rows[k].personId == home[j].personId && rows[k].stats == home[j].stats
    {
      var k := HomeRowOf(a, b, gameId, homeId, home, hc, j);
      assert 0 <= k < |a| && 0 <= k < |rows| && rows[k].personId == home[j].personId && rows[k].stats == home[j].stats;
    }
    forall j | 0 <= j < |away| && away[j].personId != PLACEHOLDER_ID
      ensures exists k :: |a| <= k < |rows| && 0 <= k < |rows| && rows[k].personId == away[j].personId && rows[k].stats == away[j].stats
    {
      var k := AwayRowOf(a, b, gameId, awayId, away, ac, j);
      assert |a| <= k < |rows| && 0 <= k < |rows| && rows[k].personId == away[j].personId && rows[k].stats == away[j].stats;
    }
    assert BattersCovered(rows, 0, |a|, home);
    assert BattersCovered(rows, |a|, |rows|, away);
  }

  /** Where home batter j sits in the rows of both sides. */
  lemma HomeRowOf(a: seq<BattingRecord>, b: seq<BattingRecord>, gameId: int, homeId: int,
                  home: seq<BatterLine>, hc: seq<(nat, nat)>, j: nat) returns (k: nat)
    requires |hc| == |home| && j < |home| && home[j].personId != PLACEHOLDER_ID
    requires a == SideRows(gameId, homeId, home, hc)
    ensures k < |a| && (a + b)[k].personId == home[j].personId && (a + b)[k].stats == home[j].stats
  {
    k := SideComplete(gameId, homeId, home, hc, j);
    assert (a + b)[k] == a[k];
  }

  /** Where away batter j sits in the rows of both sides. */
  lemma AwayRowOf(a: seq<BattingRecord>, b: seq<BattingRecord>, gameId: int, awayId: int,
                  away: seq<BatterLine>, ac: seq<(nat, nat)>, j: nat) returns (k: nat)
    requires |ac| == |away| && j < |away| && away[j].personId != PLACEHOLDER_ID
    requires b == SideRows(gameId, awayId, away, ac)
    ensures |a| <= k < |a + b| && (a + b)[k].personId == away[j].personId && (a + b)[k].stats == away[j].stats
  {
    var i := SideComplete(gameId, awayId, away, ac, j);
    k := |a| + i;
    assert (a + b)[k] == b[i];
  }

  /** No batter is lost: every non-placeholder home batter has a row among
      the home rows, every non-placeholder away batter among the away rows. */
  lemma BattingRowsComplete(gameId: int, box: BoxScore)
    requires BattingGame(gameId, box).Ok?
    ensures var rows := BattingGame(gameId, box).value;
            var n := RealBatters(box.homeBatters);
            n <= |rows| && BattersCovered(rows, 0, n, box.homeBatters) && BattersCovered(rows, n, |rows|, box.awayBatters)
  {
    var hbpText := TextOrEmpty(box.gameBoxInfo, HBP_LABEL);
    var hbpList := HbpFragments(box.gameBoxInfo);
    BattingGameSides(gameId, box);
    TwoSidesComplete(gameId, box.homeId, box.awayId, box.homeBatters, box.awayBatters,
                     Collect(Derivations(box.homeBatters, hbpText, hbpList, TextOrEmpty(box.homeFields, SF_LABEL))).value,
                     Collect(Derivations(box.awayBatters, hbpText, hbpList, TextOrEmpty(box.awayFields, SF_LABEL))).value);
  }

  /** The `name in hbp_string` guard never changes hbp: it is the count of
      the last `;`-fragment naming the batter, or 0 when none does (then the
      name is not in the HBP text at all). sf is 0 or 1, and 1 exactly when
      the name is in both the HBP text and the team's SF text. */
  lemma HbpIsLastNamingFragment(name: string, hbpText: string, sfText: string)
    ensures var fs := Split(hbpText, ';');
            var r := BatterColumns(name, hbpText, Some(fs), sfText);
            (r.Ok? <==> Readable(fs, name))
            && (r.Ok? ==> r.value.0 == LastFragmentHbp(fs, name) && r.value.1 <= 1
                          && (r.value.1 == 1 <==> Contains(hbpText, name) && Contains(sfText, name)))
  {
    var fs := Split(hbpText, ';');
    if !Contains(hbpText, name) {
      JoinSplit(hbpText, ';');
      forall k | 0 <= k < |fs| ensures !Contains(fs[k], name) {
        ContainsInJoin(fs, ';', k, name);
      }
    }
  }

  /** Whatever the SF text, a batter fails or succeeds the same way, and
      with the same hbp. */
  lemma SfTextOnlySetsSf(name: string, hbpText: string, hbpList: Option<seq<string>>, sf1: string, sf2: string)
    ensures var r1 := BatterColumns(name, hbpText, hbpList, sf1);
            var r2 := BatterColumns(name, hbpText, hbpList, sf2);
            (r1.Err? ==> r1 == r2) && (r1.Ok? <==> r2.Ok?) && (r1.Ok? ==> r1.value.0 == r2.value.0)
  {
  }

  lemma {:induction false} SideFailureIgnoresSf(rows: seq<BatterLine>, hbpText: string, hbpList: Option<seq<string>>,
                                                 sf1: string, sf2: string)
    ensures var c1 := Collect(Derivations(rows, hbpText, hbpList, sf1));
            var c2 := Collect(Derivations(rows, hbpText, hbpList, sf2));
            (c1.Ok? <==> c2.Ok?) && (c1.Err? ==> c1 == c2)
  {
    var d1 := Derivations(rows, hbpText, hbpList, sf1);
    var d2 := Derivations(rows, hbpText, hbpList, sf2);
    forall k | 0 <= k < |rows| ensures (d1[k].Ok? <==> d2[k].Ok?) && (d1[k].Err? ==> d1[k] == d2[k]) {
      SfTextOnlySetsSf(rows[k].name, hbpText, hbpList, sf1, sf2);
    }
    if Collect(d1).Err? {
      var k :| 0 <= k < |d1| && d1[k] == Err(Collect(d1).error) && forall j :: 0 <= j < k ==> d1[j].Ok?;
      CollectFirstFailure(d2, k);
    }
  }

  /** A team's SF entry affects only that team's rows: replacing the other
      team's field list changes neither whether the game fails nor any of
      this team's rows. */
  lemma SfStaysWithItsTeam(gameId: int, box: BoxScore, fields: seq<Field>)
    ensures var a := BattingGame(gameId, box);
            var b := BattingGame(gameId, box.(awayFields := fields));
            var n := RealBatters(box.homeBatters);
            (a.Ok? <==> b.Ok?) && (a.Err? ==> a == b)
            && (a.Ok? ==> n <= |a.value| && n <= |b.value| && a.value[..n] == b.value[..n])
    ensures var a := BattingGame(gameId, box);
            var c := BattingGame(gameId, box.(homeFields := fields));
            var n := RealBatters(box.homeBatters);
            (a.Ok? <==> c.Ok?) && (a.Err? ==> a == c)
            && (a.Ok? ==> n <= |a.value| && n <= |c.value| && a.value[n..] == c.value[n..])
  {
    var hbpText := TextOrEmpty(box.gameBoxInfo, HBP_LABEL);
    var hbpList := HbpFragments(box.gameBoxInfo);
    var homeSf := TextOrEmpty(box.homeFields, SF_LABEL);
    var awaySf := TextOrEmpty(box.awayFields, SF_LABEL);
    var otherSf := TextOrEmpty(fields, SF_LABEL);
    SideFailureIgnoresSf(box.awayBatters, hbpText, hbpList, awaySf, otherSf);
    SideFailureIgnoresSf(box.homeBatters, hbpText, hbpList, homeSf, otherSf);
  }

  /** Without an HBP entry no batter with a name gets an hbp or an sf, and
      nothing but an empty side fails: the missing entry reads as empty
      text. */
  lemma NoHbpEntryNoHbp(gameId: int, box: BoxScore)
    requires FirstValue(box.gameBoxInfo, HBP_LABEL).None?
    requires forall j :: 0 <= j < |box.homeBatters| ==> box.homeBatters[j].name != ""
    requires forall j :: 0 <= j < |box.awayBatters| ==> box.awayBatters[j].name != ""
    ensures BattingGame(gameId, box).Ok? <==> |box.homeBatters| > 0 && |box.awayBatters| > 0
    ensures BattingGame(gameId, box).Err? ==> BattingGame(gameId, box).error == EmptySide
    ensures BattingGame(gameId, box).Ok? ==>
              forall i :: 0 <= i < |BattingGame(gameId, box).value| ==>
                BattingGame(gameId, box).value[i].hbp == 0 && BattingGame(gameId, box).value[i].sf == 0
  {
    var hbpList := HbpFragments(box.gameBoxInfo);
    assert TextOrEmpty(box.gameBoxInfo, HBP_LABEL) == "";
    forall name: string | name != "" ensures BatterColumns(name, "", hbpList, TextOrEmpty(box.homeFields, SF_LABEL)) == Ok((0, 0))
                                     && BatterColumns(name, "", hbpList, TextOrEmpty(box.awayFields, SF_LABEL)) == Ok((0, 0))
    {
      NotInEmpty(name);
    }
    var home := Derivations(box.homeBatters, "", hbpList, TextOrEmpty(box.homeFields, SF_LABEL));
    var away := Derivations(box.awayBatters, "", hbpList, TextOrEmpty(box.awayFields, SF_LABEL));
    assert forall k :: 0 <= k < |home| ==> home[k] == Ok((0, 0));
    assert forall k :: 0 <= k < |away| ==> away[k] == Ok((0, 0));
    if BattingGame(gameId, box).Ok? {
      BattingRowsShape(gameId, box);
    }
  }

  /** A side without lines has no personId column to filter on: once every
      batter's columns are derived, the game fails there. */
  lemma EmptyBattingSide(gameId: int, box: BoxScore)
    requires |box.homeBatters| == 0 || |box.awayBatters| == 0
    requires Collect(Derivations(box.homeBatters, TextOrEmpty(box.gameBoxInfo, HBP_LABEL), HbpFragments(box.gameBoxInfo),
                                 TextOrEmpty(box.homeFields, SF_LABEL))).Ok?
    requires Collect(Derivations(box.awayBatters, TextOrEmpty(box.gameBoxInfo, HBP_LABEL), HbpFragments(box.gameBoxInfo),
                                 TextOrEmpty(box.awayFields, SF_LABEL))).Ok?
    ensures BattingGame(gameId, box) == Err(EmptySide)
  {
  }

  /** The one failure a missing HBP entry can cause: a batter with an empty
      name, because the empty string is in every text, even the empty one,
      and the fragment list was never bound. */
  lemma NoHbpEntryEmptyName(gameId: int, box: BoxScore)
    requires FirstValue(box.gameBoxInfo, HBP_LABEL).None?
    requires (exists j :: 0 <= j < |box.homeBatters| && box.homeBatters[j].name == "")
             || (exists j :: 0 <= j < |box.awayBatters| && box.awayBatters[j].name == "")
    ensures BattingGame(gameId, box) == Err(UnboundHbpList)
  {
    assert TextOrEmpty(box.gameBoxInfo, HBP_LABEL) == "";
    UnboundSide(box.homeBatters, TextOrEmpty(box.homeFields, SF_LABEL));
    UnboundSide(box.awayBatters, TextOrEmpty(box.awayFields, SF_LABEL));
  }

  /** Without an HBP list, a side's batters can only fail with
      UnboundHbpList, and a batter with an empty name does fail. */
  lemma UnboundSide(lines: seq<BatterLine>, sfText: string)
    ensures Collect(Derivations(lines, "", None, sfText)).Err?
            ==> Collect(Derivations(lines, "", None, sfText)).error == UnboundHbpList
    ensures (exists j :: 0 <= j < |lines| && lines[j].name == "") ==> Collect(Derivations(lines, "", None, sfText)).Err?
  {
    var ds := Derivations(lines, "", None, sfText);
    assert Contains("", "") by { assert "" <= ""[0..]; }
    assert forall k :: 0 <= k < |ds| && ds[k].Err? ==> ds[k].error == UnboundHbpList;
    if exists j :: 0 <= j < |lines| && lines[j].name == "" {
      var j :| 0 <= j < |lines| && lines[j].name == "";
      assert ds[j].Err?;
    }
  }

  /** A fragment "<text><n><rest>", with no digit in the text and neither a
      digit nor a '.' starting the rest, gives n; one with no digit gives 1. */
  lemma FragmentHbpReadsNumber(lead: string, n: nat, rest: string)
    requires !HasDigit(lead)
    requires |rest| == 0 || (!IsDigit(rest[0]) && rest[0] != '.')
    ensures FragmentHbp(lead + DecimalString(n) + rest) == Ok(n)
    ensures FragmentHbp(lead) == Ok(1)
  {
    NumberAfterText(lead, n, rest);
    DecimalRoundTrip(n);
    var s := lead + DecimalString(n) + rest;
    assert IsDigit(s[|lead|]);
  }

  /** A decimal count such as "2.5" or "2." stops the whole game. */
  lemma FragmentHbpRejectsDecimal(lead: string, n: nat, rest: string)
    requires !HasDigit(lead)
    ensures FragmentHbp(lead + DecimalString(n) + ("." + rest)) == Err(NotAnInteger)
  {
    NumberAfterText(lead, n, "." + rest);
    var s := lead + DecimalString(n) + ("." + rest);
    assert IsDigit(s[|lead|]);
    assert s[|lead| + |DecimalString(n)|] == '.';
  }
}

=== FILE: box_score.dfy ===
/** What the box-score provider hands over for one game, and how a free-text
    entry of the game info is looked up by its label. */
module BoxScoreData {
  import opened Wrappers

  /** Why a reconciliation run stops. Each is an exception the source does
      not catch. */
  datatype Failure =
    | UnboundHbpList       // a name matched the empty HBP text while the HBP label was absent, so the fragment list was never bound
    | NotAnInteger         // `int` applied to a token such as "2." or "2.5"
    | NoDigitRun           // the first match of \d+ taken in a fragment that has no digit
    | MissingBattersFaced  // the game info has no "Batters faced" entry
    | EmptySide            // a side has no lines, so its table has no personId column to filter on
    | NoGames              // an aggregator ran over no game id, so its table was never bound
    | NoScheduleCandidate  // the schedule lookup for an id returned nothing
    | EmptySchedule        // no schedule row was kept, so dropping the note columns fails

  type Outcome<T> = Result<T, Failure>

  /** One `{label, value}` entry of `gameBoxInfo` or of a team's field list. */
  datatype Field = Field(key: string, value: string)

  datatype BattingStats = BattingStats(
    ab: int, r: int, h: int, doubles: int, triples: int, hr: int, rbi: int, sb: int, bb: int, k: int)

  /** A batter line; personId 0 is the team-totals row. */
  datatype BatterLine = BatterLine(personId: int, name: string, stats: BattingStats)

  /** Innings pitched are kept as integer tenths: "6.2" (six innings and two
      outs) is 62. */
  datatype PitchingStats = PitchingStats(
    ipTenths: nat, h: int, r: int, er: int, bb: int, k: int, hr: int, p: int, s: int)

  /** A pitcher line; personId 0 is the team-totals row. */
  datatype PitcherLine = PitcherLine(personId: int, name: string, stats: PitchingStats)

  /** The parts of a provider box score the reconcilers read. homeFields and
      awayFields are the teams' `info[0].fieldList`. */
  datatype BoxScore = BoxScore(
    homeId: int, awayId: int,
    homeBatters: seq<BatterLine>, awayBatters: seq<BatterLine>,
    homePitchers: seq<PitcherLine>, awayPitchers: seq<PitcherLine>,
    gameBoxInfo: seq<Field>, homeFields: seq<Field>, awayFields: seq<Field>)

  /** The person id of the team-totals rows, which never reach the output. */
  const PLACEHOLDER_ID := 0

  const HBP_LABEL := "HBP"
  const SF_LABEL := "SF"
  const BATTERS_FACED_LABEL := "Batters faced"

  /** `info[info['label'] == key]['value'].to_list()[0]`: the value of the
      first entry with that label, or None where the source would raise. */
  function FirstValue(fields: seq<Field>, key: string): (r: Option<string>)
    ensures r.None? <==> forall i :: 0 <= i < |fields| ==> fields[i].key != key
    ensures r.Some? ==> exists i :: 0 <= i < |fields| && fields[i] == Field(key, r.value)
                                 && forall j :: 0 <= j < i ==> fields[j].key != key
  {
    if |fields| == 0 then None
    else if fields[0].key == key then Some(fields[0].value)
    else
      var r := FirstValue(fields[1..], key);
      assert forall i :: 1 <= i < |fields| ==> fields[i] == fields[1..][i - 1];
      r
  }

  /** The same lookup inside a `try`, with the empty string as the fallback. */
  function TextOrEmpty(fields: seq<Field>, key: string): (r: string)
    ensures (forall i :: 0 <= i < |fields| ==> fields[i].key != key) ==> r == ""
    ensures r != "" ==> exists i :: 0 <= i < |fields| && fields[i] == Field(key, r)
  {
    match FirstValue(fields, key)
    case None => ""
    case Some(v) => v
  }
}

=== FILE: pitching.dfy ===
/** The pitching reconciler: hit-by-pitch (hbp) and batters-faced
    (batFaced) counts for every pitcher of one game, and outs recorded from
    innings pitched. */
module Pitching {
  import opened Wrappers
  import opened Text
  import opened BoxScoreData
  import Batting

  /** One output row: the selected columns of a pitcher line, the derived
      hbp and batFaced, the game and team it belongs to, and the outs. */
  datatype PitchingRecord = PitchingRecord(
    personId: int, stats: PitchingStats, hbp: nat, batFaced: nat, gameId: int, teamId: int, outs: nat)

  /** `3*int(ip) + 10*(ip - int(ip))` on innings pitched written as
      whole.partialOuts, with ip held exactly as tenths. */
  function Outs(ipTenths: nat): (r: nat)
    ensures 3 * (ipTenths / 10) <= r <= 3 * (ipTenths / 10) + 9
    ensures ipTenths % 10 == 0 ==> r == 3 * (ipTenths / 10)
  {
    3 * (ipTenths / 10) + ipTenths % 10
  }

  /** Innings pitched, in tenths, for a number of outs. */
  function InningsOfOuts(outs: nat): nat
  {
    10 * (outs / 3) + outs % 3
  }

  /** Three outs per whole inning, plus the partial digit. */
  lemma OutsOfInnings(whole: nat, partial: nat)
    requires partial < 10
    ensures Outs(10 * whole + partial) == 3 * whole + partial
  {
    assert (10 * whole + partial) / 10 == whole;
    assert (10 * whole + partial) % 10 == partial;
  }

  /** With a partial digit of 0, 1 or 2 (the only ones the convention
      uses), outs and innings pitched determine each other. */
  lemma OutsRoundTrip(ipTenths: nat)
    requires ipTenths % 10 < 3
    ensures InningsOfOuts(Outs(ipTenths)) == ipTenths
  {
    var whole, partial := ipTenths / 10, ipTenths % 10;
    assert ipTenths == 10 * whole + partial;
    assert Outs(ipTenths) == 3 * whole + partial;
    assert (3 * whole + partial) / 3 == whole;
    assert (3 * whole + partial) % 3 == partial;
  }

  lemma InningsRoundTrip(outs: nat)
    ensures InningsOfOuts(outs) % 10 < 3
    ensures Outs(InningsOfOuts(outs)) == outs
  {
    OutsOfInnings(outs / 3, outs % 3);
  }

  /** The outs of "6.2" and "5.0". */
  lemma OutsExamples()
    ensures Outs(62) == 20
    ensures Outs(50) == 15
  {
  }

  /** `hbp_string.count(name)` when the name is in the HBP text, else 0. */
  function PitcherHbp(name: string, hbpText: string): nat
  {
    if Contains(hbpText, name) then Count(hbpText, name) else 0
  }

  /** `int(re.findall(r"\d+", s)[0])`: the first run of digits of a
      Batters-faced fragment, a failure when there is none. */
  function FragmentBattersFaced(s: string): (r: Outcome<nat>)
    ensures r.Err? <==> !HasDigit(s)
    ensures r.Err? ==> r.error == NoDigitRun
  {
    match FirstDigitRun(s)
    case None => Err(NoDigitRun)
    case Some((i, j)) => Ok(DecimalValue(s[i..j]))
  }

  /** Every Batters-faced fragment naming the pitcher has a digit. */
  predicate Readable(fs: seq<string>, name: string)
  {
    forall k :: 0 <= k < |fs| && Contains(fs[k], name) ==> HasDigit(fs[k])
  }

  /** The number in the last fragment naming the pitcher, 0 if none does. */
  function LastBattersFaced(fs: seq<string>, name: string): nat
    requires Readable(fs, name)
  {
    match LastContaining(fs, name)
    case None => 0
    case Some(k) => FragmentBattersFaced(fs[k]).value
  }
  /** Later fragments overwrite earlier ones: the value is that of the last
      fragment naming the player, and 0 when none does. */
  lemma LastBattersFacedIsLast(fs: seq<string>, name: string, last: Option<nat>)
    requires Readable(fs, name)
    requires last.None? ==> forall j :: 0 <= j < |fs| ==> !Contains(fs[j], name)
    requires last.Some? ==> last.value < |fs| && Contains(fs[last.value], name)
                            && forall j :: last.value < j < |fs| ==> !Contains(fs[j], name)
    ensures last.None? ==> LastBattersFaced(fs, name) == 0
    ensures last.Some? ==> LastBattersFaced(fs, name) == FragmentBattersFaced(fs[last.value]).value
  {
    if last.Some? {
      assert LastContaining(fs, name) == last;
    }
  }

  /** Reading one more fragment: it must have a digit if it names the
      pitcher, and then its number replaces the one so far. */
  lemma ScanStep(fs: seq<string>, name: string, j: nat)
    requires j < |fs| && Readable(fs[..j], name)
    ensures Readable(fs[..j + 1], name) <==> (Contains(fs[j], name) ==> HasDigit(fs[j]))
    ensures Readable(fs[..j + 1], name) ==>
              LastBattersFaced(fs[..j + 1], name)
              == if Contains(fs[j], name) then FragmentBattersFaced(fs[j]).value else LastBattersFaced(fs[..j], name)
  {
    assert fs[..j + 1][..j] == fs[..j];
    assert fs[..j + 1][j] == fs[j];
  }


  /** (hbp, batFaced) of one pitcher. */
  function PitcherColumns(name: string, hbpText: string, bfList: seq<string>): (r: Outcome<(nat, nat)>)
    ensures r.Err? <==> exists k :: 0 <= k < |bfList| && Contains(bfList[k], name) && !HasDigit(bfList[k])
    ensures r.Err? ==> r.error == NoDigitRun
    ensures r.Ok? ==> r.value.0 == Count(hbpText, name)
  {
    PitcherHbpIsCount(name, hbpText);
    if !Readable(bfList, name) then Err(NoDigitRun)
    else Ok((PitcherHbp(name, hbpText), LastBattersFaced(bfList, name)))
  }

  /** PitcherColumns for every line of one side, in order. */
  function PitcherDerivations(rows: seq<PitcherLine>, hbpText: string, bfList: seq<string>): seq<Outcome<(nat, nat)>>
  {
    seq(|rows|, k requires 0 <= k < |rows| => PitcherColumns(rows[k].name, hbpText, bfList))
  }

  function PitcherRecord(line: PitcherLine, col: (nat, nat), gameId: int, teamId: int): PitchingRecord
  {
    PitchingRecord(line.personId, line.stats, col.0, col.1, gameId, teamId, Outs(line.stats.ipTenths))
  }

  /** Number of lines that are not the team-totals placeholder. */
  function RealPitchers(rows: seq<PitcherLine>): nat
  {
    if |rows| == 0 then 0
    else (if rows[0].personId != PLACEHOLDER_ID then 1 else 0) + RealPitchers(rows[1..])
  }

  /** One side's output: placeholder rows dropped, columns selected, game
      and team id attached, outs computed. */
  function PitcherSideRows(gameId: int, teamId: int, rows: seq<PitcherLine>, cols: seq<(nat, nat)>)
    : (out: seq<PitchingRecord>)
    requires |cols| == |rows|
    ensures |out| == RealPitchers(rows)
    ensures forall i :: 0 <= i < |out| ==> out[i].personId != PLACEHOLDER_ID
  {
    if |rows| == 0 then []
    else
      var rest := PitcherSideRows(gameId, teamId, rows[1..], cols[1..]);
      if rows[0].personId == PLACEHOLDER_ID then rest
      else
        var out := [PitcherRecord(rows[0], cols[0], gameId, teamId)] + rest;
        assert forall i :: 1 <= i < |out| ==> out[i] == rest[i - 1];
        out
  }

  /** No row is invented: row i is the row of some line k. */
  lemma {:induction false} PitcherSideSound(gameId: int, teamId: int, rows: seq<PitcherLine>, cols: seq<(nat, nat)>, i: nat)
    returns (k: nat)
    requires |cols| == |rows| && i < |PitcherSideRows(gameId, teamId, rows, cols)|
    ensures k < |rows| && PitcherSideRows(gameId, teamId, rows, cols)[i] == PitcherRecord(rows[k], cols[k], gameId, teamId)
  {
    var out := PitcherSideRows(gameId, teamId, rows, cols);
    var rest := PitcherSideRows(gameId, teamId, rows[1..], cols[1..]);
    if rows[0].personId == PLACEHOLDER_ID {
      assert out == rest;
      var k' := PitcherSideSound(gameId, teamId, rows[1..], cols[1..], i);
      assert rows[1..][k'] == rows[k' + 1] && cols[1..][k'] == cols[k' + 1];
      k := k' + 1;
    } else if i == 0 {
      k := 0;
    } else {
      assert out == [PitcherRecord(rows[0], cols[0], gameId, teamId)] + rest;
      var k' := PitcherSideSound(gameId, teamId, rows[1..], cols[1..], i - 1);
      assert rows[1..][k'] == rows[k' + 1] && cols[1..][k'] == cols[k' + 1];
      k := k' + 1;
    }
  }

  /** No line is lost: every non-placeholder line has its row, at index i. */
  lemma {:induction false} PitcherSideComplete(gameId: int, teamId: int, rows: seq<PitcherLine>, cols: seq<(nat, nat)>, j: nat)
    returns (i: nat)
    requires |cols| == |rows| && j < |rows| && rows[j].personId != PLACEHOLDER_ID
    ensures i < |PitcherSideRows(gameId, teamId, rows, cols)|
    ensures PitcherSideRows(gameId, teamId, rows, cols)[i] == PitcherRecord(rows[j], cols[j], gameId, teamId)
  {
    var out := PitcherSideRows(gameId, teamId, rows, cols);
    var rest := PitcherSideRows(gameId, teamId, rows[1..], cols[1..]);
    if j == 0 {
      assert out == [PitcherRecord(rows[0], cols[0], gameId, teamId)] + rest;
      i := 0;
    } else {
      var i' := PitcherSideComplete(gameId, teamId, rows[1..], cols[1..], j - 1);
      assert rows[1..][j - 1] == rows[j] && cols[1..][j - 1] == cols[j];
      if rows[0].personId == PLACEHOLDER_ID {
        assert out == rest;
        i := i';
      } else {
        assert out == [PitcherRecord(rows[0], cols[0], gameId, teamId)] + rest;
        i := i' + 1;
      }
    }
  }

  /** Row i of out is the row of line idx[i], a non-placeholder line. */
  ghost predicate PitcherRowsAt(out: seq<PitchingRecord>, idx: seq<nat>, rows: seq<PitcherLine>, cols: seq<(nat, nat)>, gameId: int, teamId: int)
    requires |cols| == |rows|
  {
    |idx| == |out|
    && forall i :: 0 <= i < |idx| ==>
         idx[i] < |rows| && rows[idx[i]].personId != PLACEHOLDER_ID
         && out[i] == PitcherRecord(rows[idx[i]], cols[idx[i]], gameId, teamId)
  }

  /** Every non-placeholder line is among idx. */
  ghost predicate PitcherCoversReal(idx: seq<nat>, rows: seq<PitcherLine>)
  {
    forall k :: 0 <= k < |rows| && rows[k].personId != PLACEHOLDER_ID ==> k in idx
  }

  /** out is the sequence of rows of lines idx of one side: the indices
      strictly increase and take in every non-placeholder line. */
  ghost predicate PitcherSelects(out: seq<PitchingRecord>, idx: seq<nat>, rows: seq<PitcherLine>, cols: seq<(nat, nat)>, gameId: int, teamId: int)
    requires |cols| == |rows|
  {
    PitcherRowsAt(out, idx, rows, cols, gameId, teamId) && Increasing(idx) && PitcherCoversReal(idx, rows)
  }

  /** Rows of the lines after the first are rows of the whole side at the
      shifted indices. */
  lemma PitcherRowsAtShift(out: seq<PitchingRecord>, idx: seq<nat>, rows: seq<PitcherLine>, cols: seq<(nat, nat)>, gameId: int, teamId: int)
    requires |cols| == |rows| && |rows| > 0
    requires PitcherRowsAt(out, idx, rows[1..], cols[1..], gameId, teamId)
    ensures PitcherRowsAt(out, Shift(idx), rows, cols, gameId, teamId)
  {
    var shifted := Shift(idx);
    forall i | 0 <= i < |idx|
      ensures rows[shifted[i]] == rows[1..][idx[i]] && cols[shifted[i]] == cols[1..][idx[i]]
    {
    }
  }

  /** A kept first line puts its row in front. */
  lemma PitcherRowsAtCons(out: seq<PitchingRecord>, idx: seq<nat>, rows: seq<PitcherLine>, cols: seq<(nat, nat)>, gameId: int, teamId: int)
    requires |cols| == |rows| && |rows| > 0 && rows[0].personId != PLACEHOLDER_ID
    requires PitcherRowsAt(out, Shift(idx), rows, cols, gameId, teamId)
    ensures PitcherRowsAt([PitcherRecord(rows[0], cols[0], gameId, teamId)] + out, [0] + Shift(idx), rows, cols, gameId, teamId)
  {
    var idx0 := [0] + Shift(idx);
    var out0 := [PitcherRecord(rows[0], cols[0], gameId, teamId)] + out;
    assert forall i :: 0 < i < |idx0| ==> idx0[i] == Shift(idx)[i - 1] && out0[i] == out[i - 1];
  }

  /** A non-placeholder line after the first is among the shifted indices. */
  lemma PitcherCoversShift(idx: seq<nat>, rows: seq<PitcherLine>)
    requires |rows| > 0 && PitcherCoversReal(idx, rows[1..])
    ensures forall k :: 1 <= k < |rows| && rows[k].personId != PLACEHOLDER_ID ==> k in Shift(idx)
  {
    var shifted := Shift(idx);
    forall k | 1 <= k < |rows| && rows[k].personId != PLACEHOLDER_ID
      ensures k in shifted
    {
      assert rows[1..][k - 1] == rows[k];
      var i :| 0 <= i < |idx| && idx[i] == k - 1;
      assert shifted[i] == k;
    }
  }

  /** The filter keeps line order: row i is the row of line idx[i], the
      indices strictly increase, and every non-placeholder line is among
      them, so each such line gives exactly one row. */
  lemma {:induction false} PitcherSideOrder(gameId: int, teamId: int, rows: seq<PitcherLine>, cols: seq<(nat, nat)>)
    returns (idx: seq<nat>)
    requires |cols| == |rows|
    ensures PitcherSelects(PitcherSideRows(gameId, teamId, rows, cols), idx, rows, cols, gameId, teamId)
  {
    if |rows| == 0 {
      return [];
    }
    var rest := PitcherSideRows(gameId, teamId, rows[1..], cols[1..]);
    var idx' := PitcherSideOrder(gameId, teamId, rows[1..], cols[1..]);
    PitcherRowsAtShift(rest, idx', rows, cols, gameId, teamId);
    PitcherCoversShift(idx', rows);
    ShiftIncreasing(idx');
    if rows[0].personId == PLACEHOLDER_ID {
      idx := Shift(idx');
    } else {
      PitcherRowsAtCons(rest, idx', rows, cols, gameId, teamId);
      idx := [0] + Shift(idx');
      assert PitcherSideRows(gameId, teamId, rows, cols) == [PitcherRecord(rows[0], cols[0], gameId, teamId)] + rest;
    }
  }

  /** What `game_analysis_pitching` returns for a game: home rows, then
      away rows, or the failure that stops it. */
  function PitchingGame(gameId: int, box: BoxScore): (r: Outcome<seq<PitchingRecord>>)
    ensures r.Ok? ==> FirstValue(box.gameBoxInfo, BATTERS_FACED_LABEL).Some?
                      && |box.homePitchers| > 0 && |box.awayPitchers| > 0
                      && |r.value| == RealPitchers(box.homePitchers) + RealPitchers(box.awayPitchers)
    ensures r.Err? ==> r.error == MissingBattersFaced || r.error == NoDigitRun || r.error == EmptySide
  {
    var hbpText := TextOrEmpty(box.gameBoxInfo, HBP_LABEL);
    match FirstValue(box.gameBoxInfo, BATTERS_FACED_LABEL)
    case None => Err(MissingBattersFaced)
    case Some(bf) =>
      var bfList := Split(bf, ';');
      var home := Collect(PitcherDerivations(box.homePitchers, hbpText, bfList));
      var away := Collect(PitcherDerivations(box.awayPitchers, hbpText, bfList));
      if home.Err? then Err(home.error)
      else if away.Err? then Err(away.error)
      else if |box.homePitchers| == 0 || |box.awayPitchers| == 0 then Err(EmptySide)
      else Ok(PitcherSideRows(gameId, box.homeId, box.homePitchers, home.value)
              + PitcherSideRows(gameId, box.awayId, box.awayPitchers, away.value))
  }

  /** The loop over the Batters-faced fragments for the pitcher in row i: a
      fragment naming the pitcher overwrites batFaced[i]. */
  method ScanBattersFaced(name: string, fs: seq<string>, batFaced: array<nat>, i: nat) returns (failure: Option<Failure>)
    requires i < batFaced.Length && batFaced[i] == 0
    modifies batFaced
    ensures batFaced[..] == old(batFaced[..])[i := batFaced[i]]
    ensures failure.None? <==> Readable(fs, name)
    ensures failure.Some? ==> failure.value == NoDigitRun
    ensures failure.None? ==> batFaced[i] == LastBattersFaced(fs, name)
  {
    var j := 0;
    while j < |fs|
      invariant 0 <= j <= |fs|
      invariant batFaced[..] == old(batFaced[..])[i := batFaced[i]]
      invariant Readable(fs[..j], name)
      invariant batFaced[i] == LastBattersFaced(fs[..j], name)
    {
      var s := fs[j];
      ScanStep(fs, name, j);
      if Contains(s, name) {
        var count := FragmentBattersFaced(s);
        if count.Err? {
          assert !Readable(fs, name) by { assert Contains(fs[j], name) && !HasDigit(fs[j]); }
          return Some(count.error);
        }
        batFaced[i] := count.value;
      }
      j := j + 1;
    }
    assert fs[..j] == fs;
    return None;
  }

  /** The loop over one side's pitchers: the hbp and batFaced columns start
      at 0 and are overwritten in place. */
  method FillPitcherColumns(rows: seq<PitcherLine>, hbpText: string, bfList: seq<string>,
                            hbp: array<nat>, batFaced: array<nat>) returns (failure: Option<Failure>)
    requires hbp != batFaced && hbp.Length == |rows| && batFaced.Length == |rows|
    requires forall k :: 0 <= k < |rows| ==> hbp[k] == 0 && batFaced[k] == 0
    modifies hbp, batFaced
    ensures failure.None? ==> Collect(PitcherDerivations(rows, hbpText, bfList)) == Ok(Zip(hbp[..], batFaced[..]))
    ensures failure.Some? ==> Collect(PitcherDerivations(rows, hbpText, bfList)) == Err(failure.value)
  {
    ghost var d := PitcherDerivations(rows, hbpText, bfList);
    var i := 0;
    while i < |rows|
      invariant 0 <= i <= |rows|
      invariant forall k :: 0 <= k < i ==> d[k] == Ok((hbp[k], batFaced[k]))
      invariant forall k :: i <= k < |rows| ==> hbp[k] == 0 && batFaced[k] == 0
    {
      var name := rows[i].name;
      assert d[i] == PitcherColumns(name, hbpText, bfList);
      if Contains(hbpText, name) {
        hbp[i] := Count(hbpText, name);
      }
      failure := ScanBattersFaced(name, bfList, batFaced, i);
      if failure.Some? {
        CollectFirstFailure(d, i);
        return failure;
      }
      i := i + 1;
    }
    assert Collect(d).value == Zip(hbp[..], batFaced[..]);
    return None;
  }

  /** One side's table with its hbp and bat_faced columns added at 0 and
      filled by the loop over its pitchers. */
  method PitcherSide(rows: seq<PitcherLine>, hbpText: string, bfList: seq<string>) returns (r: Outcome<seq<(nat, nat)>>)
    ensures r == Collect(PitcherDerivations(rows, hbpText, bfList))
  {
    var hbp := new nat[|rows|](_ => 0);
    var batFaced := new nat[|rows|](_ => 0);
    var failure := FillPitcherColumns(rows, hbpText, bfList, hbp, batFaced);
    if failure.Some? {
      return Err(failure.value);
    }
    return Ok(Zip(hbp[..], batFaced[..]));
  }

  /** `game_analysis_pitching` on the box score of one game. */
  method ReconcilePitching(gameId: int, box: BoxScore) returns (r: Outcome<seq<PitchingRecord>>)
    ensures r == PitchingGame(gameId, box)
  {
    var hbpText := TextOrEmpty(box.gameBoxInfo, HBP_LABEL);
    var bf := FirstValue(box.gameBoxInfo, BATTERS_FACED_LABEL);
    if bf.None? {
      return Err(MissingBattersFaced);
    }
    var bfList := Split(bf.value, ';');

    var home := PitcherSide(box.homePitchers, hbpText, bfList);
    if home.Err? {
      return Err(home.error);
    }
    var away := PitcherSide(box.awayPitchers, hbpText, bfList);
    if away.Err? {
      return Err(away.error);
    }
    if |box.homePitchers| == 0 || |box.awayPitchers| == 0 {
      return Err(EmptySide);
    }
    r := Ok(PitcherSideRows(gameId, box.homeId, box.homePitchers, home.value)
            + PitcherSideRows(gameId, box.awayId, box.awayPitchers, away.value));
  }

  /** A row of one side: a non-placeholder pitcher line of that side, its
      stats, its derived columns, the outs of its innings pitched. */
  ghost predicate PitcherRowOfSide(rec: PitchingRecord, gameId: int, teamId: int, lines: seq<PitcherLine>,
                                   hbpText: string, bfList: seq<string>)
  {
    rec.personId != PLACEHOLDER_ID && rec.gameId == gameId && rec.teamId == teamId
    && rec.outs == Outs(rec.stats.ipTenths) &&
    exists j :: 0 <= j < |lines| && lines[j].personId == rec.personId && lines[j].stats == rec.stats
                && PitcherColumns(lines[j].name, hbpText, bfList) == Ok((rec.hbp, rec.batFaced))
  }

  lemma PitcherSideRowsOfSide(gameId: int, teamId: int, lines: seq<PitcherLine>, hbpText: string, bfList: seq<string>)
    requires Collect(PitcherDerivations(lines, hbpText, bfList)).Ok?
    ensures var out := PitcherSideRows(gameId, teamId, lines, Collect(PitcherDerivations(lines, hbpText, bfList)).value);
            forall i :: 0 <= i < |out| ==> PitcherRowOfSide(out[i], gameId, teamId, lines, hbpText, bfList)
  {
    var d := PitcherDerivations(lines, hbpText, bfList);
    var cols := Collect(d).value;
    var out := PitcherSideRows(gameId, teamId, lines, cols);
    forall i | 0 <= i < |out|
      ensures PitcherRowOfSide(out[i], gameId, teamId, lines, hbpText, bfList)
    {
      var k := PitcherSideSound(gameId, teamId, lines, cols, i);
      assert d[k] == PitcherColumns(lines[k].name, hbpText, bfList);
    }
  }

  /** The two sides a successful game is made of. */
  lemma PitchingGameSides(gameId: int, box: BoxScore)
    requires PitchingGame(gameId, box).Ok?
    ensures FirstValue(box.gameBoxInfo, BATTERS_FACED_LABEL).Some?
    ensures var hbpText := TextOrEmpty(box.gameBoxInfo, HBP_LABEL);
            var bfList := Split(FirstValue(box.gameBoxInfo, BATTERS_FACED_LABEL).value, ';');
            var home := Collect(PitcherDerivations(box.homePitchers, hbpText, bfList));
            var away := Collect(PitcherDerivations(box.awayPitchers, hbpText, bfList));
            home.Ok? && away.Ok?
            && PitchingGame(gameId, box).value
               == PitcherSideRows(gameId, box.homeId, box.homePitchers, home.value)
                  + PitcherSideRows(gameId, box.awayId, box.awayPitchers, away.value)
  {
  }

  lemma PitcherTwoSidesShape(gameId: int, homeId: int, awayId: int, home: seq<PitcherLine>, away: seq<PitcherLine>,
                             hbpText: string, bfList: seq<string>)
    requires Collect(PitcherDerivations(home, hbpText, bfList)).Ok?
    requires Collect(PitcherDerivations(away, hbpText, bfList)).Ok?
    ensures var rows := PitcherSideRows(gameId, homeId, home, Collect(PitcherDerivations(home, hbpText, bfList)).value)
                        + PitcherSideRows(gameId, awayId, away, Collect(PitcherDerivations(away, hbpText, bfList)).value);
            var n := RealPitchers(home);
            |rows| == n + RealPitchers(away)
            && (forall k :: 0 <= k < n ==> PitcherRowOfSide(rows[k], gameId, homeId, home, hbpText, bfList))
            && (forall k :: n <= k < |rows| ==> PitcherRowOfSide(rows[k], gameId, awayId, away, hbpText, bfList))
  {
    var a := PitcherSideRows(gameId, homeId, home, Collect(PitcherDerivations(home, hbpText, bfList)).value);
    var b := PitcherSideRows(gameId, awayId, away, Collect(PitcherDerivations(away, hbpText, bfList)).value);
    PitcherSideRowsOfSide(gameId, homeId, home, hbpText, bfList);
    PitcherSideRowsOfSide(gameId, awayId, away, hbpText, bfList);
    PitcherRowsConcat(a, b, gameId, homeId, awayId, home, away, hbpText, bfList);
  }

  /** Rows of the home side followed by rows of the away side keep their sides. */
  lemma PitcherRowsConcat(a: seq<PitchingRecord>, b: seq<PitchingRecord>, gameId: int, homeId: int, awayId: int,
                          home: seq<PitcherLine>, away: seq<PitcherLine>, hbpText: string, bfList: seq<string>)
    requires forall i :: 0 <= i < |a| ==> PitcherRowOfSide(a[i], gameId, homeId, home, hbpText, bfList)
    requires forall i :: 0 <= i < |b| ==> PitcherRowOfSide(b[i], gameId, awayId, away, hbpText, bfList)
    ensures forall k :: 0 <= k < |a| ==> PitcherRowOfSide((a + b)[k], gameId, homeId, home, hbpText, bfList)
    ensures forall k :: |a| <= k < |a + b| ==> PitcherRowOfSide((a + b)[k], gameId, awayId, away, hbpText, bfList)
  {
    forall k | 0 <= k < |a|
      ensures PitcherRowOfSide((a + b)[k], gameId, homeId, home, hbpText, bfList)
    {
      assert (a + b)[k] == a[k];
    }
    forall k | |a| <= k < |a + b|
      ensures PitcherRowOfSide((a + b)[k], gameId, awayId, away, hbpText, bfList)
    {
      assert (a + b)[k] == b[k - |a|];
    }
  }

  /** A game's pitching rows: one per non-placeholder pitcher, home rows
      first and then away rows, each tagged with the game id and its own
      side's team id, carrying that pitcher's stats and derived columns and
      the outs of its innings pitched. */
  lemma PitchingRowsShape(gameId: int, box: BoxScore)
    requires PitchingGame(gameId, box).Ok?
    ensures FirstValue(box.gameBoxInfo, BATTERS_FACED_LABEL).Some?
    ensures var rows := PitchingGame(gameId, box).value;
            var hbpText := TextOrEmpty(box.gameBoxInfo, HBP_LABEL);
            var bfList := Split(FirstValue(box.gameBoxInfo, BATTERS_FACED_LABEL).value, ';');
            var n := RealPitchers(box.homePitchers);
            |rows| == n + RealPitchers(box.awayPitchers)
            && (forall k :: 0 <= k < n ==> PitcherRowOfSide(rows[k], gameId, box.homeId, box.homePitchers, hbpText, bfList))
            && (forall k :: n <= k < |rows| ==> PitcherRowOfSide(rows[k], gameId, box.awayId, box.awayPitchers, hbpText, bfList))
  {
    PitchingGameSides(gameId, box);
    PitcherTwoSidesShape(gameId, box.homeId, box.awayId, box.homePitchers, box.awayPitchers,
                         TextOrEmpty(box.gameBoxInfo, HBP_LABEL),
                         Split(FirstValue(box.gameBoxInfo, BATTERS_FACED_LABEL).value, ';'));
  }

  /** Every non-placeholder line has a row with its person id and stats
      among rows[lo..hi]. */
  ghost predicate PitchersCovered(rows: seq<PitchingRecord>, lo: int, hi: int, lines: seq<PitcherLine>)
  {
    forall j :: 0 <= j < |lines| && lines[j].personId != PLACEHOLDER_ID ==>
      exists k :: lo <= k < hi && 0 <= k < |rows| && rows[k].personId == lines[j].personId && rows[k].stats == lines[j].stats
  }

  lemma PitcherTwoSidesComplete(gameId: int, homeId: int, awayId: int, home: seq<PitcherLine>, away: seq<PitcherLine>,
                         hc: seq<(nat, nat)>, ac: seq<(nat, nat)>)
    requires |hc| == |home| && |ac| == |away|
    ensures var a := PitcherSideRows(gameId, homeId, home, hc);
            var rows := a + PitcherSideRows(gameId, awayId, away, ac);
            PitchersCovered(rows, 0, |a|, home) && PitchersCovered(rows, |a|, |rows|, away)
  {
    var a := PitcherSideRows(gameId, homeId, home, hc);
    var b := PitcherSideRows(gameId, awayId, away, ac);
    var rows := a + b;
    forall j | 0 <= j < |home| && home[j].personId != PLACEHOLDER_ID
      ensures exists k :: 0 <= k < |a| && 0 <= k < |rows| && rows[k].personId == home[j].personId && rows[k].stats == home[j].stats
    {
      var k := HomePitcherRowOf(a, b, gameId, homeId, home, hc, j);
      assert 0 <= k < |a| && 0 <= k < |rows| && rows[k].personId == home[j].personId && rows[k].stats == home[j].stats;
    }
    forall j | 0 <= j < |away| && away[j].personId != PLACEHOLDER_ID
      ensures exists k :: |a| <= k < |rows| && 0 <= k < |rows| && rows[k].personId == away[j].personId && rows[k].stats == away[j].stats
    {
      var k := AwayPitcherRowOf(a, b, gameId, awayId, away, ac, j);
      assert |a| <= k < |rows| && 0 <= k < |rows| && rows[k].personId == away[j].personId && rows[k].stats == away[j].stats;
    }
    assert PitchersCovered(rows, 0, |a|, home);
    assert PitchersCovered(rows, |a|, |rows|, away);
  }

  /** Where home pitcher j sits in the rows of both sides. */
  lemma HomePitcherRowOf(a: seq<PitchingRecord>, b: seq<PitchingRecord>, gameId: int, homeId: int,
                         home: seq<PitcherLine>, hc: seq<(nat, nat)>, j: nat) returns (k: nat)
    requires |hc| == |home| && j < |home| && home[j].personId != PLACEHOLDER_ID
    requires a == PitcherSideRows(gameId, homeId, home, hc)
    ensures k < |a| && (a + b)[k].personId == home[j].personId && (a + b)[k].stats == home[j].stats
  {
    k := PitcherSideComplete(gameId, homeId, home, hc, j);
    assert (a + b)[k] == a[k];
  }

  /** Where away pitcher j sits in the rows of both sides. */
  lemma AwayPitcherRowOf(a: seq<PitchingRecord>, b: seq<PitchingRecord>, gameId: int, awayId: int,
                         away: seq<PitcherLine>, ac: seq<(nat, nat)>, j: nat) returns (k: nat)
    requires |ac| == |away| && j < |away| && away[j].personId != PLACEHOLDER_ID
    requires b == PitcherSideRows(gameId, awayId, away, ac)
    ensures |a| <= k < |a + b| && (a + b)[k].personId == away[j].personId && (a + b)[k].stats == away[j].stats
  {
    var i := PitcherSideComplete(gameId, awayId, away, ac, j);
    k := |a| + i;
    assert (a + b)[k] == b[i];
  }

  /** No pitcher is lost: every non-placeholder home pitcher has a row among
      the home rows, every non-placeholder away pitcher among the away rows. */
  lemma PitchingRowsComplete(gameId: int, box: BoxScore)
    requires PitchingGame(gameId, box).Ok?
    ensures var rows := PitchingGame(gameId, box).value;
            var n := RealPitchers(box.homePitchers);
            n <= |rows| && PitchersCovered(rows, 0, n, box.homePitchers) && PitchersCovered(rows, n, |rows|, box.awayPitchers)
  {
    PitchingGameSides(gameId, box);
    var hbpText := TextOrEmpty(box.gameBoxInfo, HBP_LABEL);
    var bfList := Split(FirstValue(box.gameBoxInfo, BATTERS_FACED_LABEL).value, ';');
    PitcherTwoSidesComplete(gameId, box.homeId, box.awayId, box.homePitchers, box.awayPitchers,
                            Collect(PitcherDerivations(box.homePitchers, hbpText, bfList)).value,
                            Collect(PitcherDerivations(box.awayPitchers, hbpText, bfList)).value);
  }

  /** Without a Batters-faced entry the game stops before any pitcher is
      looked at; otherwise the only failures are a naming fragment without a
      digit and, once every pitcher is read, a side without lines. */
  lemma PitchingFailures(gameId: int, box: BoxScore)
    ensures FirstValue(box.gameBoxInfo, BATTERS_FACED_LABEL).None? ==> PitchingGame(gameId, box) == Err(MissingBattersFaced)
    ensures FirstValue(box.gameBoxInfo, BATTERS_FACED_LABEL).Some? && PitchingGame(gameId, box).Err?
            ==> PitchingGame(gameId, box).error == NoDigitRun || PitchingGame(gameId, box).error == EmptySide
  {
    var bf := FirstValue(box.gameBoxInfo, BATTERS_FACED_LABEL);
    if bf.Some? {
      var hbpText := TextOrEmpty(box.gameBoxInfo, HBP_LABEL);
      var bfList := Split(bf.value, ';');
      SideFailsWithNoDigitRun(box.homePitchers, hbpText, bfList);
      SideFailsWithNoDigitRun(box.awayPitchers, hbpText, bfList);
    }
  }

  /** A side's pitchers can only fail to derive with NoDigitRun. */
  lemma SideFailsWithNoDigitRun(lines: seq<PitcherLine>, hbpText: string, bfList: seq<string>)
    ensures Collect(PitcherDerivations(lines, hbpText, bfList)).Err?
            ==> Collect(PitcherDerivations(lines, hbpText, bfList)).error == NoDigitRun
  {
    var ds := PitcherDerivations(lines, hbpText, bfList);
    assert forall k :: 0 <= k < |ds| && ds[k].Err? ==> ds[k].error == NoDigitRun;
  }

  /** A side without lines has no personId column to filter on: once the
      Batters-faced entry exists and every pitcher's columns are derived, the
      game fails there. */
  lemma EmptyPitchingSide(gameId: int, box: BoxScore, bf: string)
    requires |box.homePitchers| == 0 || |box.awayPitchers| == 0
    requires FirstValue(box.gameBoxInfo, BATTERS_FACED_LABEL) == Some(bf)
    requires Collect(PitcherDerivations(box.homePitchers, TextOrEmpty(box.gameBoxInfo, HBP_LABEL), Split(bf, ';'))).Ok?
    requires Collect(PitcherDerivations(box.awayPitchers, TextOrEmpty(box.gameBoxInfo, HBP_LABEL), Split(bf, ';'))).Ok?
    ensures PitchingGame(gameId, box) == Err(EmptySide)
  {
  }

  /** The `name in hbp_string` guard never changes hbp: a pitcher's hbp is
      the number of non-overlapping occurrences of the name in the HBP text,
      whatever number the text gives next to the name. */
  lemma PitcherHbpIsCount(name: string, hbpText: string)
    ensures PitcherHbp(name, hbpText) == Count(hbpText, name)
  {
    CountPositiveIffContains(hbpText, name);
  }

  /** Without an HBP entry no pitcher with a name gets an hbp. */
  lemma NoHbpEntryNoPitcherHbp(gameId: int, box: BoxScore)
    requires FirstValue(box.gameBoxInfo, HBP_LABEL).None?
    requires forall j :: 0 <= j < |box.homePitchers| ==> box.homePitchers[j].name != ""
    requires forall j :: 0 <= j < |box.awayPitchers| ==> box.awayPitchers[j].name != ""
    requires PitchingGame(gameId, box).Ok?
    ensures forall i :: 0 <= i < |PitchingGame(gameId, box).value| ==> PitchingGame(gameId, box).value[i].hbp == 0
  {
    assert TextOrEmpty(box.gameBoxInfo, HBP_LABEL) == "";
    PitchingRowsShape(gameId, box);
    forall name: string | name != "" ensures PitcherHbp(name, "") == 0 {
      NotInEmpty(name);
    }
  }

  /** A pitcher named nowhere in the Batters-faced entry has batFaced 0 and
      cannot fail there. */
  lemma UnnamedPitcherFacedNone(name: string, hbpText: string, bfText: string)
    requires !Contains(bfText, name)
    ensures PitcherColumns(name, hbpText, Split(bfText, ';')) == Ok((PitcherHbp(name, hbpText), 0))
  {
    var fs := Split(bfText, ';');
    JoinSplit(bfText, ';');
    forall k | 0 <= k < |fs| ensures !Contains(fs[k], name) {
      ContainsInJoin(fs, ';', k, name);
    }
  }

  /** A fragment "<text><n><rest>", with no digit in the text and no digit
      starting the rest, gives n, even when the rest starts with '.'; a
      fragment with no digit is a failure. */
  lemma FragmentBattersFacedReadsNumber(lead: string, n: nat, rest: string)
    requires !HasDigit(lead)
    requires |rest| == 0 || !IsDigit(rest[0])
    ensures FragmentBattersFaced(lead + DecimalString(n) + rest) == Ok(n)
    ensures FragmentBattersFaced(lead) == Err(NoDigitRun)
  {
    NumberAfterText(lead, n, rest);
    DecimalRoundTrip(n);
  }

  /** The two reconcilers read the same HBP entry differently: for the entry
      "<name> <n>", a batter of that name gets hbp n (the number written), a
      pitcher of that name gets 1 (the name occurs once). */
  lemma HbpReadDifferently(name: string, n: nat)
    requires |name| > 0
    requires forall k :: 0 <= k < |name| ==> !IsDigit(name[k]) && name[k] != ' ' && name[k] != ';'
    ensures var text := name + " " + DecimalString(n);
            Batting.BatterColumns(name, text, Some(Split(text, ';')), "") == Ok((n, 0))
            && PitcherHbp(name, text) == 1
  {
    BatterReadsWrittenNumber(name, n);
    PitcherCountsName(name, DecimalString(n));
    PitcherHbpIsCount(name, name + " " + DecimalString(n));
  }

  /** The batter side of HbpReadDifferently: the single fragment names the
      batter and its number is read. */
  lemma BatterReadsWrittenNumber(name: string, n: nat)
    requires |name| > 0
    requires forall k :: 0 <= k < |name| ==> !IsDigit(name[k]) && name[k] != ' ' && name[k] != ';'
    ensures var text := name + " " + DecimalString(n);
            Batting.BatterColumns(name, text, Some(Split(text, ';')), "") == Ok((n, 0))
  {
    var ds := DecimalString(n);
    var lead := name + " ";
    var text := lead + ds;
    assert name + " " + ds == text;
    assert !HasDigit(lead) by { assert forall k :: 0 <= k < |lead| ==> !IsDigit(lead[k]); }
    assert ';' !in text by { assert forall k :: 0 <= k < |text| ==> text[k] != ';'; }
    SplitJoin([text], ';');
    assert Split(text, ';') == [text];
    assert Contains(text, name) by { assert name <= text[0..]; }
    assert LastContaining([text], name) == Some(0);
    Batting.FragmentHbpReadsNumber(lead, n, "");
    assert lead + ds + "" == text;
    NotInEmpty(name);
  }

  /** The pitcher side of HbpReadDifferently: a name with no space and no
      digit occurs once in "<name> <digits>". */
  lemma PitcherCountsName(name: string, ds: string)
    requires |name| > 0 && AllDigits(ds)
    requires forall k :: 0 <= k < |name| ==> !IsDigit(name[k]) && name[k] != ' '
    ensures Count(name + " " + ds, name) == 1
  {
    var text := name + " " + ds;
    var t := text[|name|..];
    assert t == " " + ds;
    assert !Contains(t, name) by {
      forall i | 0 <= i <= |t| ensures !(name <= t[i..]) {
        if i < |t| {
          assert t[i] == ' ' || IsDigit(t[i]);
          assert t[i..][0] == t[i];
        }
      }
    }
    CountPositiveIffContains(t, name);
    assert name <= text;
  }
}

=== FILE: schedule.dfy ===
/** The schedule lookup: for each game id, the schedule entries the
    provider returns, with postponed and cancelled entries dropped when the
    id matches more than one entry. The provider is the parameter
    `lookup`. */
module Schedule {
  import opened Wrappers
  import opened BoxScoreData

  /** One schedule entry as the provider returns it. */
  datatype ScheduleEntry = ScheduleEntry(
    gameId: int, gameDate: string, status: string, homeId: int, awayId: int,
    homePitcherNote: string, awayPitcherNote: string, nationalBroadcasts: seq<string>, summary: string)

  /** A row of the output table: an entry without its two pitcher notes,
      its broadcasts and its summary. */
  datatype GameRow = GameRow(gameId: int, gameDate: string, status: string, homeId: int, awayId: int)

  const POSTPONED := "Postponed"
  const CANCELLED := "Cancelled"

  predicate Playable(e: ScheduleEntry)
  {
    !(e.status == POSTPONED || e.status == CANCELLED)
  }

  /** The entries that are neither postponed nor cancelled, in order. */
  function Filter(s: seq<ScheduleEntry>): (r: seq<ScheduleEntry>)
    ensures |r| <= |s|
    ensures forall i :: 0 <= i < |r| ==> Playable(r[i]) && r[i] in s
    ensures forall k :: 0 <= k < |s| && Playable(s[k]) ==> s[k] in r
  {
    if |s| == 0 then []
    else
      var init, last := s[..|s| - 1], s[|s| - 1];
      assert forall k :: 0 <= k < |init| ==> init[k] == s[k];
      Filter(init) + (if Playable(last) then [last] else [])
  }

  /** Filtering keeps the order: the parts of a sequence filter separately. */
  lemma {:induction false} FilterAppend(a: seq<ScheduleEntry>, b: seq<ScheduleEntry>)
    ensures Filter(a + b) == Filter(a) + Filter(b)
  {
    if |b| == 0 {
      assert a + b == a;
    } else {
      FilterAppend(a, b[..|b| - 1]);
      assert (a + b)[..|a + b| - 1] == a + b[..|b| - 1];
    }
  }

  /** The entries kept for one id: a single entry is kept whatever its
      status, several are filtered, none is a failure (`result[0]` of an
      empty list). */
  function Kept(result: seq<ScheduleEntry>): (r: Outcome<seq<ScheduleEntry>>)
    ensures r.Err? <==> |result| == 0
    ensures r.Err? ==> r.error == NoScheduleCandidate
    ensures r.Ok? ==> 0 < |r.value| || |result| > 1
    ensures r.Ok? ==> forall i :: 0 <= i < |r.value| ==> r.value[i] in result
    ensures r.Ok? && |r.value| == 0 ==> forall k :: 0 <= k < |result| ==> !Playable(result[k])
  {
    if |result| > 1 then Ok(Filter(result))
    else if |result| == 1 then Ok([result[0]])
    else Err(NoScheduleCandidate)
  }

  /** The entries kept for ids, id after id, or the failure of the first id
      the provider knows nothing about. */
  function Selected(ids: seq<int>, lookup: int -> seq<ScheduleEntry>): (r: Outcome<seq<ScheduleEntry>>)
    ensures r.Err? ==> r.error == NoScheduleCandidate
  {
    if |ids| == 0 then Ok([])
    else
      match Selected(ids[..|ids| - 1], lookup)
      case Err(e) => Err(e)
      case Ok(prev) =>
        match Kept(lookup(ids[|ids| - 1]))
        case Err(e) => Err(e)
        case Ok(ks) => Ok(prev + ks)
  }

  function Drop(e: ScheduleEntry): GameRow
  {
    GameRow(e.gameId, e.gameDate, e.status, e.homeId, e.awayId)
  }

  /** What `get_game_data` returns. With no entry kept, the table has no
      columns and dropping the note columns fails. */
  function GameData(ids: seq<int>, lookup: int -> seq<ScheduleEntry>): (r: Outcome<seq<GameRow>>)
    ensures r.Ok? ==> |r.value| > 0
    ensures r.Err? ==> r.error == NoScheduleCandidate || r.error == EmptySchedule
    ensures |ids| == 0 ==> r == Err(EmptySchedule)
  {
    match Selected(ids, lookup)
    case Err(e) => Err(e)
    case Ok(entries) =>
      if |entries| == 0 then Err(EmptySchedule)
      else Ok(seq(|entries|, i requires 0 <= i < |entries| => Drop(entries[i])))
  }

  /** The inner loop of `get_game_data` over several entries for one id:
      each playable entry is appended to out. */
  method AppendPlayable(out: seq<ScheduleEntry>, result: seq<ScheduleEntry>) returns (out': seq<ScheduleEntry>)
    ensures out' == out + Filter(result)
  {
    out' := out;
    var j := 0;
    while j < |result|
      invariant 0 <= j <= |result|
      invariant out' == out + Filter(result[..j])
    {
      assert result[..j + 1][..j] == result[..j];
      if Playable(result[j]) {
        out' := out' + [result[j]];
      }
      j := j + 1;
    }
    assert result[..j] == result;
  }

  /** `get_game_data`. */
  method GetGameData(ids: seq<int>, lookup: int -> seq<ScheduleEntry>) returns (r: Outcome<seq<GameRow>>)
    ensures r == GameData(ids, lookup)
  {
    var out: seq<ScheduleEntry> := [];
    var n := 0;
    while n < |ids|
      invariant 0 <= n <= |ids|
      invariant Selected(ids[..n], lookup) == Ok(out)
    {
      SelectedAppend(ids[..n], ids[n], lookup);
      assert ids[..n] + [ids[n]] == ids[..n + 1];
      var result := lookup(ids[n]);
      if |result| > 1 {
        out := AppendPlayable(out, result);
      } else if |result| == 1 {
        out := out + [result[0]];
      } else {
        SelectedFailureSticks(ids, lookup, n + 1);
        return Err(NoScheduleCandidate);
      }
      n := n + 1;
    }
    assert ids[..n] == ids;
    if |out| == 0 {
      return Err(EmptySchedule);
    }
    r := Ok(seq(|out|, i requires 0 <= i < |out| => Drop(out[i])));
  }

  /** Once an id fails, the whole run fails with that failure. */
  lemma {:induction false} SelectedFailureSticks(ids: seq<int>, lookup: int -> seq<ScheduleEntry>, n: nat)
    requires n <= |ids| && Selected(ids[..n], lookup).Err?
    ensures Selected(ids, lookup) == Selected(ids[..n], lookup)
    decreases |ids| - n
  {
    if n < |ids| {
      assert ids[..n + 1][..n] == ids[..n];
      SelectedFailureSticks(ids, lookup, n + 1);
    } else {
      assert ids[..n] == ids;
    }
  }

  /** The run fails for the first id the provider returns nothing for. */
  lemma FirstUnknownIdFails(ids: seq<int>, lookup: int -> seq<ScheduleEntry>, k: nat)
    requires k < |ids| && |lookup(ids[k])| == 0
    requires forall j :: 0 <= j < k ==> |lookup(ids[j])| > 0
    ensures GameData(ids, lookup) == Err(NoScheduleCandidate)
  {
    SelectedKnown(ids, lookup, k);
    assert ids[..k + 1][..k] == ids[..k];
    SelectedFailureSticks(ids, lookup, k + 1);
  }

  /** While the provider knows every id, nothing fails. */
  lemma {:induction false} SelectedKnown(ids: seq<int>, lookup: int -> seq<ScheduleEntry>, k: nat)
    requires k <= |ids|
    requires forall j :: 0 <= j < k ==> |lookup(ids[j])| > 0
    ensures Selected(ids[..k], lookup).Ok?
  {
    if k > 0 {
      assert ids[..k][..k - 1] == ids[..k - 1];
      SelectedKnown(ids, lookup, k - 1);
    }
  }

  /** A single entry for an id is kept, even a postponed or cancelled one;
      of several, exactly the playable ones are kept, in order. */
  lemma KeptEntries(result: seq<ScheduleEntry>)
    ensures |result| == 1 ==> Kept(result) == Ok(result)
    ensures |result| > 1 ==> Kept(result).Ok?
                             && (forall i :: 0 <= i < |Kept(result).value| ==>
                                   Playable(Kept(result).value[i]) && Kept(result).value[i] in result)
                             && (forall k :: 0 <= k < |result| && Playable(result[k]) ==> result[k] in Kept(result).value)
  {
    if |result| == 1 {
      assert [result[0]] == result;
    }
  }

  /** Looking up one more id appends its kept entries. */
  lemma SelectedAppend(ids: seq<int>, id: int, lookup: int -> seq<ScheduleEntry>)
    ensures Selected(ids + [id], lookup)
            == match Selected(ids, lookup)
               case Err(e) => Err(e)
               case Ok(prev) => match Kept(lookup(id)) case Err(e) => Err(e) case Ok(ks) => Ok(prev + ks)
  {
    assert (ids + [id])[..|ids|] == ids;
  }

  /** Every kept entry is one the provider returned for one of the ids. */
  lemma {:induction false} SelectedSound(ids: seq<int>, lookup: int -> seq<ScheduleEntry>)
    requires Selected(ids, lookup).Ok?
    ensures forall i :: 0 <= i < |Selected(ids, lookup).value| ==>
              exists k :: 0 <= k < |ids| && Selected(ids, lookup).value[i] in lookup(ids[k])
  {
    if |ids| > 0 {
      var n := |ids|;
      var init := ids[..n - 1];
      SelectedSound(init, lookup);
      var prev := Selected(init, lookup).value;
      var ks := Kept(lookup(ids[n - 1])).value;
      var all := Selected(ids, lookup).value;
      assert all == prev + ks;
      forall i | 0 <= i < |all| ensures exists k :: 0 <= k < n && all[i] in lookup(ids[k]) {
        if i < |prev| {
          var k :| 0 <= k < |init| && prev[i] in lookup(init[k]);
          assert all[i] == prev[i] && init[k] == ids[k];
        } else {
          assert all[i] == ks[i - |prev|] && ks[i - |prev|] in ks;
          assert all[i] in lookup(ids[n - 1]);
        }
      }
    }
  }

  /** row is an entry the provider returned for one of the ids, with its
      note columns dropped. */
  ghost predicate LookedUp(ids: seq<int>, lookup: int -> seq<ScheduleEntry>, row: GameRow)
  {
    exists k, e :: 0 <= k < |ids| && e in lookup(ids[k]) && row == Drop(e)
  }

  /** Every output row is a looked-up entry with its note columns dropped. */
  lemma GameDataSound(ids: seq<int>, lookup: int -> seq<ScheduleEntry>)
    requires GameData(ids, lookup).Ok?
    ensures |GameData(ids, lookup).value| > 0
    ensures forall i :: 0 <= i < |GameData(ids, lookup).value| ==> LookedUp(ids, lookup, GameData(ids, lookup).value[i])
  {
    SelectedSound(ids, lookup);
    var entries := Selected(ids, lookup).value;
    var rows := GameData(ids, lookup).value;
    forall i | 0 <= i < |rows|
      ensures LookedUp(ids, lookup, rows[i])
    {
      var k :| 0 <= k < |ids| && entries[i] in lookup(ids[k]);
      var e := entries[i];
      assert 0 <= k < |ids| && e in lookup(ids[k]) && rows[i] == Drop(e);
    }
  }

  /** The entries kept for the first n ids come first in what is kept for
      all of them. */
  lemma {:induction false} SelectedPrefix(ids: seq<int>, lookup: int -> seq<ScheduleEntry>, n: nat)
    requires Selected(ids, lookup).Ok? && n <= |ids|
    ensures Selected(ids[..n], lookup).Ok?
    ensures Selected(ids[..n], lookup).value <= Selected(ids, lookup).value
    decreases |ids|
  {
    if n == |ids| {
      assert ids[..n] == ids;
    } else {
      var init := ids[..|ids| - 1];
      assert Selected(init, lookup).Ok?;
      assert Selected(init, lookup).value <= Selected(ids, lookup).value;
      SelectedPrefix(init, lookup, n);
      assert init[..n] == ids[..n];
    }
  }

  /** A successful run's rows are the kept entries, one for one, with
      their note columns dropped. */
  lemma GameDataRows(ids: seq<int>, lookup: int -> seq<ScheduleEntry>)
    requires GameData(ids, lookup).Ok?
    ensures Selected(ids, lookup).Ok?
    ensures |GameData(ids, lookup).value| == |Selected(ids, lookup).value|
    ensures forall j :: 0 <= j < |GameData(ids, lookup).value| ==>
              GameData(ids, lookup).value[j] == Drop(Selected(ids, lookup).value[j])
  {
  }

  /** The rows of id k: its kept entries, in order and with their note
      columns dropped, sit right after the rows of the ids before it; the
      last id's rows end the table. */
  lemma GameDataLayout(ids: seq<int>, lookup: int -> seq<ScheduleEntry>, k: nat)
    requires GameData(ids, lookup).Ok? && k < |ids|
    ensures Selected(ids[..k], lookup).Ok? && Kept(lookup(ids[k])).Ok?
    ensures var lo, ks := |Selected(ids[..k], lookup).value|, Kept(lookup(ids[k])).value;
            lo + |ks| <= |GameData(ids, lookup).value|
            && (k == |ids| - 1 ==> lo + |ks| == |GameData(ids, lookup).value|)
            && forall i :: 0 <= i < |ks| ==> GameData(ids, lookup).value[lo + i] == Drop(ks[i])
  {
    GameDataRows(ids, lookup);
    var all := Selected(ids, lookup).value;
    var rows := GameData(ids, lookup).value;
    SelectedPrefix(ids, lookup, k);
    SelectedPrefix(ids, lookup, k + 1);
    SelectedAppend(ids[..k], ids[k], lookup);
    assert ids[..k] + [ids[k]] == ids[..k + 1];
    var prev := Selected(ids[..k], lookup).value;
    var ks := Kept(lookup(ids[k])).value;
    assert prev + ks <= all;
    if k == |ids| - 1 {
      assert ids[..k + 1] == ids;
    }
    forall i | 0 <= i < |ks|
      ensures rows[|prev| + i] == Drop(ks[i])
    {
      assert all[|prev| + i] == (prev + ks)[|prev| + i] == ks[i];
    }
  }
}

=== FILE: text.dfy ===
/** The string primitives the reconcilers are built from, as Python defines
    them: `sub in s`, `s.split(sep)`, `s.count(sub)`, `any(c.isdigit() for c
    in s)` and the first match of the regular expression \d+. Digits are the
    ASCII digits '0'..'9'. */
module Text {
  import opened Wrappers

  predicate IsDigit(c: char) { '0' <= c <= '9' }

  predicate AllDigits(s: string) { forall k :: 0 <= k < |s| ==> IsDigit(s[k]) }

  /** `any(char.isdigit() for char in s)` */
  predicate HasDigit(s: string) { exists k :: 0 <= k < |s| && IsDigit(s[k]) }

  /** Python's `sub in s`. Every string contains the empty string. */
  predicate Contains(s: string, sub: string)
    ensures Contains(s, sub) ==> |sub| <= |s|
  {
    exists i :: 0 <= i <= |s| && sub <= s[i..]
  }

  /** An occurrence in s is either at the very start or in s[1..]. */
  lemma ContainsUncons(s: string, sub: string)
    requires |s| > 0
    ensures Contains(s, sub) <==> sub <= s || Contains(s[1..], sub)
  {
    if Contains(s, sub) && !(sub <= s) {
      var i :| 0 <= i <= |s| && sub <= s[i..];
      assert s[0..] == s;
      assert i > 0;
      assert s[1..][i - 1..] == s[i..];
    }
    if Contains(s[1..], sub) {
      var i :| 0 <= i <= |s[1..]| && sub <= s[1..][i..];
      assert s[1..][i..] == s[i + 1..];
    }
    if sub <= s {
      assert s[0..] == s;
    }
  }

  /** An occurrence stays an occurrence when text is added on either side. */
  lemma ContainsExtend(a: string, t: string, sub: string)
    ensures Contains(a, sub) ==> Contains(a + t, sub)
    ensures Contains(t, sub) ==> Contains(a + t, sub)
  {
    if Contains(a, sub) {
      var i :| 0 <= i <= |a| && sub <= a[i..];
      assert (a + t)[i..] == a[i..] + t;
    }
    if Contains(t, sub) {
      var i :| 0 <= i <= |t| && sub <= t[i..];
      assert (a + t)[|a| + i..] == t[i..];
    }
  }

  /** Nothing non-empty occurs in the empty string. */
  lemma NotInEmpty(sub: string)
    requires |sub| > 0
    ensures !Contains("", sub)
  {
    assert forall i :: 0 <= i <= 0 ==> |""[i..]| == 0;
  }

  /** Python's `s.count(sub)`: scans left to right and, at each occurrence,
      counts it and resumes after it, so occurrences never overlap. The empty
      string is counted |s| + 1 times. */
  function Count(s: string, sub: string): (r: nat)
    ensures |sub| == 0 ==> r == |s| + 1
    ensures |sub| > 0 ==> r <= |s|
    decreases |s|
  {
    if |sub| == 0 then |s| + 1
    else if |s| == 0 then 0
    else if sub <= s then 1 + Count(s[|sub|..], sub)
    else Count(s[1..], sub)
  }

  /** `s.count(sub)` is positive exactly when `sub in s`. */
  lemma {:induction false} CountPositiveIffContains(s: string, sub: string)
    ensures Count(s, sub) > 0 <==> Contains(s, sub)
    decreases |s|
  {
    if |sub| == 0 {
      assert sub <= s[0..];
    } else if |s| == 0 {
      assert forall i :: 0 <= i <= |s| ==> |s[i..]| == 0;
    } else if sub <= s {
      assert s[0..] == s;
    } else {
      CountPositiveIffContains(s[1..], sub);
      ContainsUncons(s, sub);
    }
  }

  /** Non-overlapping: the occurrences counted fit side by side in s. */
  lemma {:induction false} CountFits(s: string, sub: string)
    requires |sub| > 0
    ensures Count(s, sub) * |sub| <= |s|
    decreases |s|
  {
    if |s| == 0 {
    } else if sub <= s {
      var c := Count(s[|sub|..], sub);
      CountFits(s[|sub|..], sub);
      assert Count(s, sub) == 1 + c;
      MulSucc(c, |sub|);
    } else {
      CountFits(s[1..], sub);
      assert Count(s, sub) == Count(s[1..], sub);
    }
  }

  lemma MulSucc(c: nat, m: nat)
    ensures (1 + c) * m == m + c * m
  {
  }

  /** Python's `s.split(sep)` for a one-character separator: always at least
      one part, and no part contains the separator. */
  function Split(s: string, sep: char): (parts: seq<string>)
    ensures |parts| >= 1
    ensures forall k :: 0 <= k < |parts| ==> sep !in parts[k]
  {
    if |s| == 0 then [""]
    else
      var rest := Split(s[1..], sep);
      if s[0] == sep then [""] + rest else [[s[0]] + rest[0]] + rest[1..]
  }

  /** `sep.join(parts)`: the inverse of Split. */
  function Join(parts: seq<string>, sep: char): string
  {
    if |parts| == 0 then ""
    else if |parts| == 1 then parts[0]
    else parts[0] + [sep] + Join(parts[1..], sep)
  }

  /** Splitting loses nothing: joining the parts gives back the text. */
  lemma {:induction false} JoinSplit(s: string, sep: char)
    ensures Join(Split(s, sep), sep) == s
  {
    if |s| > 0 {
      var rest := Split(s[1..], sep);
      JoinSplit(s[1..], sep);
      if s[0] == sep {
        assert Split(s, sep) == [""] + rest;
        assert ([""] + rest)[1..] == rest;
        assert Join(Split(s, sep), sep) == "" + [sep] + Join(rest, sep);
        assert s == [s[0]] + s[1..];
      } else {
        var head := [s[0]] + rest[0];
        var parts := [head] + rest[1..];
        assert parts[1..] == rest[1..];
        if |rest| == 1 {
          assert Join(parts, sep) == head;
          assert Join(rest, sep) == rest[0];
        } else {
          assert Join(parts, sep) == head + [sep] + Join(rest[1..], sep);
          assert Join(rest, sep) == rest[0] + [sep] + Join(rest[1..], sep);
        }
        assert s == [s[0]] + s[1..];
      }
    }
  }

  /** What occurs in one part occurs in the joined text. */
  lemma {:induction false} ContainsInJoin(parts: seq<string>, sep: char, k: nat, sub: string)
    requires k < |parts|
    ensures Contains(parts[k], sub) ==> Contains(Join(parts, sep), sub)
  {
    if |parts| > 1 {
      var rest := [sep] + Join(parts[1..], sep);
      assert Join(parts, sep) == parts[0] + rest;
      if k == 0 {
        ContainsExtend(parts[0], rest, sub);
      } else {
        ContainsInJoin(parts[1..], sep, k - 1, sub);
        ContainsExtend([sep], Join(parts[1..], sep), sub);
        ContainsExtend(parts[0], rest, sub);
      }
    }
  }

  /** Index of the last of the fragments that contains sub. */
  function LastContaining(fs: seq<string>, sub: string): (r: Option<nat>)
    ensures r.None? ==> forall k :: 0 <= k < |fs| ==> !Contains(fs[k], sub)
    ensures r.Some? ==> r.value < |fs| && Contains(fs[r.value], sub)
                        && forall k :: r.value < k < |fs| ==> !Contains(fs[k], sub)
  {
    if |fs| == 0 then None
    else if Contains(fs[|fs| - 1], sub) then Some(|fs| - 1)
    else LastContaining(fs[..|fs| - 1], sub)
  }

  /** A separator-free prefix becomes the start of the first part. */
  lemma {:induction false} SplitPrepend(p: string, t: string, sep: char)
    requires sep !in p
    ensures Split(p + t, sep) == [p + Split(t, sep)[0]] + Split(t, sep)[1..]
  {
    if |p| == 0 {
      assert p + t == t;
      assert p + Split(t, sep)[0] == Split(t, sep)[0];
      assert [Split(t, sep)[0]] + Split(t, sep)[1..] == Split(t, sep);
    } else {
      SplitPrepend(p[1..], t, sep);
      assert (p + t)[0] == p[0];
      assert (p + t)[1..] == p[1..] + t;
      assert [p[0]] + (p[1..] + Split(t, sep)[0]) == p + Split(t, sep)[0];
    }
  }

  /** Joining separator-free parts and splitting again gives back the parts. */
  lemma {:induction false} SplitJoin(parts: seq<string>, sep: char)
    requires |parts| >= 1
    requires forall k :: 0 <= k < |parts| ==> sep !in parts[k]
    ensures Split(Join(parts, sep), sep) == parts
  {
    if |parts| == 1 {
      SplitPrepend(parts[0], "", sep);
      assert parts[0] + "" == parts[0];
    } else {
      var tail := parts[1..];
      SplitJoin(tail, sep);
      var t := [sep] + Join(tail, sep);
      assert Join(parts, sep) == parts[0] + t;
      SplitPrepend(parts[0], t, sep);
      assert Split(t, sep) == [""] + tail;
      assert parts[0] + "" == parts[0];
      assert parts == [parts[0]] + tail;
    }
  }

  /** Length of the longest prefix of s made of digits. */
  function DigitPrefix(s: string): (n: nat)
    ensures n <= |s|
    ensures AllDigits(s[..n])
    ensures n < |s| ==> !IsDigit(s[n])
  {
    if |s| == 0 || !IsDigit(s[0]) then 0
    else
      var n := 1 + DigitPrefix(s[1..]);
      assert forall k :: 1 <= k < n ==> s[..n][k] == s[1..][..n - 1][k - 1];
      n
  }

  /** Position of the first digit of s, if any. */
  function FirstDigit(s: string): (r: Option<nat>)
    ensures r.None? <==> !HasDigit(s)
    ensures r.Some? ==> r.value < |s| && IsDigit(s[r.value]) && !HasDigit(s[..r.value])
  {
    if |s| == 0 then None
    else if IsDigit(s[0]) then Some(0)
    else
      match FirstDigit(s[1..])
      case None =>
        assert forall k :: 1 <= k < |s| ==> s[k] == s[1..][k - 1];
        None
      case Some(i) =>
        assert s[..i + 1] == [s[0]] + s[1..][..i];
        Some(i + 1)
  }

  /** [start, end) is the first thing the regular expression \d+ matches in
      s: the leftmost run of digits, taken as long as it goes. */
  predicate IsFirstDigitRun(s: string, start: nat, end: nat)
  {
    start < end <= |s| && !HasDigit(s[..start]) && AllDigits(s[start..end]) && (end == |s| || !IsDigit(s[end]))
  }

  /** The first match of \d+ in s, or None when s has no digit. */
  function FirstDigitRun(s: string): (r: Option<(nat, nat)>)
    ensures r.None? <==> !HasDigit(s)
    ensures r.Some? ==> IsFirstDigitRun(s, r.value.0, r.value.1)
  {
    match FirstDigit(s)
    case None => None
    case Some(i) =>
      var n := DigitPrefix(s[i..]);
      assert s[i..][..n] == s[i..i + n];
      assert n > 0 by { assert s[i..][0] == s[i]; }
      Some((i, i + n))
  }

  /** At most one span is the first run of digits. */
  lemma FirstDigitRunUnique(s: string, a: nat, b: nat, c: nat, d: nat)
    requires IsFirstDigitRun(s, a, b) && IsFirstDigitRun(s, c, d)
    ensures a == c && b == d
  {
    assert forall k :: 0 <= k < a ==> !IsDigit(s[k]) by { assert forall k :: 0 <= k < a ==> s[..a][k] == s[k]; }
    assert forall k :: 0 <= k < c ==> !IsDigit(s[k]) by { assert forall k :: 0 <= k < c ==> s[..c][k] == s[k]; }
    assert forall k :: a <= k < b ==> IsDigit(s[k]) by { assert forall k :: a <= k < b ==> s[a..b][k - a] == s[k]; }
    assert forall k :: c <= k < d ==> IsDigit(s[k]) by { assert forall k :: c <= k < d ==> s[c..d][k - c] == s[k]; }
    assert IsDigit(s[a]) && IsDigit(s[c]);
    assert (b < |s| ==> !IsDigit(s[b])) && (d < |s| ==> !IsDigit(s[d]));
  }

  /** The span that is the first run of digits is what FirstDigitRun finds. */
  lemma FirstDigitRunIs(s: string, a: nat, b: nat)
    requires IsFirstDigitRun(s, a, b)
    ensures FirstDigitRun(s) == Some((a, b))
  {
    assert HasDigit(s) by { assert s[a..b][0] == s[a]; }
    var r := FirstDigitRun(s).value;
    FirstDigitRunUnique(s, r.0, r.1, a, b);
  }

  function DigitValue(c: char): nat
    requires IsDigit(c)
  {
    (c as int) - ('0' as int)
  }

  /** The value of a decimal numeral, as Python's `int` reads it. */
  function DecimalValue(ds: string): nat
    requires AllDigits(ds)
  {
    if |ds| == 0 then 0
    else
      assert AllDigits(ds[..|ds| - 1]) by { assert forall k :: 0 <= k < |ds| - 1 ==> ds[..|ds| - 1][k] == ds[k]; }
      10 * DecimalValue(ds[..|ds| - 1]) + DigitValue(ds[|ds| - 1])
  }

  /** Python's `str(n)` for a natural number. */
  function DecimalString(n: nat): (ds: string)
    ensures |ds| >= 1 && AllDigits(ds)
  {
    if n < 10 then [('0' as int + n) as char]
    else
      var init := DecimalString(n / 10);
      var ds := init + [('0' as int + n % 10) as char];
      assert forall k :: 0 <= k < |init| ==> ds[k] == init[k];
      ds
  }

  /** Reading back a written number gives the number. */
  lemma {:induction false} DecimalRoundTrip(n: nat)
    ensures DecimalValue(DecimalString(n)) == n
  {
    if n >= 10 {
      var ds := DecimalString(n);
      DecimalRoundTrip(n / 10);
      assert ds[..|ds| - 1] == DecimalString(n / 10);
    }
  }

  /** A number written after digit-free text, and followed by nothing or by
      a non-digit, is the first run of digits there. */
  lemma NumberAfterText(prefix: string, n: nat, suffix: string)
    requires !HasDigit(prefix)
    requires |suffix| == 0 || !IsDigit(suffix[0])
    ensures var s := prefix + DecimalString(n) + suffix;
            var end := |prefix| + |DecimalString(n)|;
            FirstDigitRun(s) == Some((|prefix|, end)) && s[|prefix|..end] == DecimalString(n)
  {
    var ds := DecimalString(n);
    var s := prefix + ds + suffix;
    var end := |prefix| + |ds|;
    assert s[..|prefix|] == prefix;
    assert s[|prefix|..end] == ds;
    assert end == |s| || !IsDigit(s[end]) by {
      if end < |s| { assert s[end] == suffix[0]; }
    }
    assert IsFirstDigitRun(s, |prefix|, end);
    FirstDigitRunIs(s, |prefix|, end);
  }
}

=== FILE: wrappers.dfy ===
/** Option and Result, and the two ways per-game tables are combined: Collect
    stops at the first failure, Flatten concatenates tables in order. */
module Wrappers {

  datatype Option<T> = None | Some(value: T)

  datatype Result<T, E> = Ok(value: T) | Err(error: E)

  /** Runs a sequence of steps that may fail, in order: the first failure
      aborts everything, otherwise all values are kept, position by position. */
  function Collect<T, E>(rs: seq<Result<T, E>>): (r: Result<seq<T>, E>)
    ensures r.Ok? <==> forall k :: 0 <= k < |rs| ==> rs[k].Ok?
    ensures r.Ok? ==> |r.value| == |rs| && forall k :: 0 <= k < |rs| ==> r.value[k] == rs[k].value
    ensures r.Err? ==> exists k :: 0 <= k < |rs| && rs[k] == Err(r.error) && forall j :: 0 <= j < k ==> rs[j].Ok?
  {
    if |rs| == 0 then Ok([])
    else
      var init, last := rs[..|rs| - 1], rs[|rs| - 1];
      assert forall k :: 0 <= k < |init| ==> init[k] == rs[k];
      match Collect(init)
      case Err(e) => Err(e)
      case Ok(vs) => if last.Err? then Err(last.error) else Ok(vs + [last.value])
  }

  /** The failure Collect reports is the one of the earliest failing step. */
  lemma CollectFirstFailure<T, E>(rs: seq<Result<T, E>>, k: nat)
    requires k < |rs| && rs[k].Err?
    requires forall j :: 0 <= j < k ==> rs[j].Ok?
    ensures Collect(rs) == Err(rs[k].error)
  {
    var r := Collect(rs);
    var k' :| 0 <= k' < |rs| && rs[k'] == Err(r.error) && forall j :: 0 <= j < k' ==> rs[j].Ok?;
    assert !(k' < k) && !(k < k');
  }

  /** The tables, one after another. */
  function Flatten<T>(tables: seq<seq<T>>): seq<T>
  {
    if |tables| == 0 then [] else Flatten(tables[..|tables| - 1]) + tables[|tables| - 1]
  }

  /** The number of rows of all tables together. */
  function TotalRows<T>(tables: seq<seq<T>>): nat
  {
    if |tables| == 0 then 0 else TotalRows(tables[..|tables| - 1]) + |tables[|tables| - 1]|
  }

  lemma {:induction false} FlattenLength<T>(tables: seq<seq<T>>)
    ensures |Flatten(tables)| == TotalRows(tables)
  {
    if |tables| > 0 {
      FlattenLength(tables[..|tables| - 1]);
    }
  }

  /** Table k sits in the flattened sequence right after the rows of tables 0..k-1. */
  lemma {:induction false} FlattenSlice<T>(tables: seq<seq<T>>, k: nat)
    requires k < |tables|
    ensures TotalRows(tables[..k]) + |tables[k]| <= |Flatten(tables)|
    ensures Flatten(tables)[TotalRows(tables[..k])..TotalRows(tables[..k]) + |tables[k]|] == tables[k]
  {
    var n := |tables|;
    var init := tables[..n - 1];
    FlattenLength(tables);
    FlattenLength(init);
    if k == n - 1 {
      assert tables[..k] == init;
    } else {
      FlattenSlice(init, k);
      assert init[..k] == tables[..k];
      assert init[k] == tables[k];
      var lo := TotalRows(tables[..k]);
      assert Flatten(tables) == Flatten(init) + tables[n - 1];
      assert Flatten(tables)[lo..lo + |tables[k]|] == Flatten(init)[lo..lo + |tables[k]|];
    }
  }

  /** Every index moved one place on. */
  function Shift(idx: seq<nat>): (r: seq<nat>)
    ensures |r| == |idx| && forall i :: 0 <= i < |idx| ==> r[i] == idx[i] + 1
  {
    seq(|idx|, i requires 0 <= i < |idx| => idx[i] + 1)
  }

  /** The indices strictly increase. */
  ghost predicate Increasing(idx: seq<nat>)
  {
    forall i, j :: 0 <= i < j < |idx| ==> idx[i] < idx[j]
  }

  /** Shifting keeps increasing indices increasing, and so does putting 0
      in front of the shifted ones. */
  lemma ShiftIncreasing(idx: seq<nat>)
    requires Increasing(idx)
    ensures Increasing(Shift(idx)) && Increasing([0] + Shift(idx))
  {
    var s0 := [0] + Shift(idx);
    assert forall i :: 0 < i < |s0| ==> s0[i] == idx[i - 1] + 1;
  }

  /** Two columns of equal length, read row by row. */
  function Zip<A, B>(a: seq<A>, b: seq<B>): (r: seq<(A, B)>)
    requires |a| == |b|
  {
    seq(|a|, k requires 0 <= k < |a| => (a[k], b[k]))
  }
}
